=== FILE: README.md ===
# Ruhoh resource resolution, modelled in Dafny

This project models the resource-resolution core of the Ruhoh static-site
generator (`Ruhoh::Base::Collection` and `Ruhoh::ResourcesInterface`).
A *resource* is a named content category such as `pages`, `posts` or
`layouts`. For one resource the core does four things:

- It builds the override cascade: system, then base, then an optional theme.
- It lists the files of the resource's namespace directory under every
  cascade root, dropping hidden, missing, directory and excluded paths.
- It merges the per-file results in cascade order, so a later level
  overrides an earlier one.
- It decides which Ruby module implements the resource: the configured
  `use` type, else a registered type of the same name, else `Pages`.

The registry adds three more:

- It computes the resource-name lists `all`, `discover`, `acting_as_pages`
  and `non_pages`.
- It repeats the type-resolution rule.
- It caches one Collection instance per resource.

Files:

- `context.dfy`: module `Context`. It holds the value `@ruhoh` stands for:
  - cascade roots;
  - the filesystem as a map from root to namespace to directory;
    a directory has a listing in glob order and a kind for every path that exists;
  - config.yml entries in file order (a key may repeat in the sequence; see "Left out");
  - the registered and built-in type names (`registered` and `base`, given lists);
  - the constants each type module defines, in place of reflection;
  - an abstract `matches(pattern, id)` for exclude patterns;
  - the external `Model#generate`, as an uninterpreted function.
- `naming.dfy`: module `Naming`. `camelize` as Ruby computes it
  (split on `_`, drop trailing empty pieces, capitalise, join), proved equal
  to a character-by-character definition.
- `lists.dfy`: module `Lists`. The Ruby Array operations `uniq`, `delete`
  and `-`.
- `collection.dfy`: module `BaseCollection`. It holds:
  - the class `Collection`, with the memoised companion objects as fields;
  - `Files`, `Generate` and `ValidFile` as loops proved against the
    specification functions `FileList`, `Merge` and `ValidId`;
  - lemmas on cascade order, exclusion, the empty case, last-writer-wins
    and scoped generation.
- `resources_interface.dfy`: module `Registry`. It holds the class
  `ResourcesInterface`, its name lists, its copy of the resolver, and the
  instance cache with its invariant.

`abort` on a bad `use` is the error value `Abort(resource, use)`.
A `const_get` of a missing constant is `Undefined(module, constant)`.
A cache variable name Ruby rejects is `IllegalName(name)`.

## Model

| member | source | states |
|---|---|---|
| `Context.Lookup` | lib/ruhoh/base/collection.rb:66-72 | a resource's config entry is found iff config.yml has that key, and the value returned belongs to that key |
| `Context.LookupDistinct` | lib/ruhoh/base/collection.rb:66-72 | with each key once, as in a parsed Hash, looking up an entry's key returns that entry's value |
| `Naming.CamelizeIsCharwise` | lib/ruhoh/base/collection.rb:228-230 | split-capitalise-join equals the character-wise reading: underscores vanish, each piece's first character is upper-cased, the rest lower-cased |
| `Naming.CamelizeShape` | lib/ruhoh/base/collection.rb:228-230 | camelize removes every underscore and keeps every other character |
| `Naming.CamelizeWord` | lib/ruhoh/resources_interface.rb:160-162 | a lower-case word without underscores comes out with only its first letter upper-cased |
| `Lists.Uniq` | lib/ruhoh/resources_interface.rb:52 | `uniq` keeps exactly the elements of its input, each once |
| `Lists.Delete` | lib/ruhoh/resources_interface.rb:53 | `delete(x)` keeps exactly the elements other than `x` and adds no duplicates |
| `Lists.Minus` | lib/ruhoh/resources_interface.rb:95 | `a - b` keeps exactly the elements of `a` not in `b` and adds no duplicates |
| `BaseCollection.Collection.constructor` | lib/ruhoh/base/collection.rb:7-9 | a new collection holds the site and nothing is memoised yet |
| `BaseCollection.Collection.Paths` | lib/ruhoh/base/collection.rb:29-46 | the cascade is system then base, plus theme last iff a theme is configured; length 2 or 3 |
| `BaseCollection.Collection.HasPaths` | lib/ruhoh/base/collection.rb:52-56 | `paths?` holds iff some cascade root has a directory for the namespace |
| `BaseCollection.FindRoot` | lib/ruhoh/base/collection.rb:53-55 | `find` succeeds iff some root has the namespace directory, and returns such a root |
| `BaseCollection.Collection.ValidFile` | lib/ruhoh/base/collection.rb:140-147 | true iff the path exists, is not a directory, does not start with '.', and no exclude pattern matches it |
| `BaseCollection.Collection.Files` | lib/ruhoh/base/collection.rb:118-138 | the nested loops return exactly `FileList`: per cascade root, in order, the accepted candidates of its namespace directory |
| `BaseCollection.FileListAppend` | lib/ruhoh/base/collection.rb:120-136 | discovery distributes over cascade order: every pointer of an earlier root precedes every pointer of a later root |
| `BaseCollection.EmitSound` | lib/ruhoh/base/collection.rb:124-134 | each pointer of a directory is built for a candidate that passed the test, with its realpath under that root |
| `BaseCollection.FileListSound` | lib/ruhoh/base/collection.rb:118-138 | every pointer names the resource and comes from a root whose namespace directory exists and emits its id |
| `BaseCollection.ExclusionSound` | lib/ruhoh/base/collection.rb:140-147 | without a block, no pointer is hidden, missing, a directory, or matched by an exclude pattern |
| `BaseCollection.NoDirectoryNoFiles` | lib/ruhoh/base/collection.rb:120-122 | with no namespace directory at any root, `files` is empty |
| `BaseCollection.MergeAppend` | lib/ruhoh/base/collection.rb:88-98 | merging the results of two pointer runs is the union in which the later run wins |
| `BaseCollection.LastWriterWins` | lib/ruhoh/base/collection.rb:86-101 | keys are those some pointer produced; each value comes from the last pointer producing that key |
| `BaseCollection.NoModelKeysAreIds` | lib/ruhoh/base/collection.rb:92-96 | without a Model the merged keys are exactly the pointer ids |
| `BaseCollection.EmitMerge` | lib/ruhoh/base/collection.rb:124-134 | without a Model one directory yields each accepted candidate mapped to its own pointer |
| `BaseCollection.RootMerge` | lib/ruhoh/base/collection.rb:120-136 | without a Model one root yields exactly the ids it emits, each mapped to that root's pointer |
| `BaseCollection.GenerateByLevels` | lib/ruhoh/base/collection.rb:86-101 | the generated dictionary is the lower levels' dictionary overridden by the top level's |
| `BaseCollection.GeneratedKeys` | lib/ruhoh/base/collection.rb:86-101 | without a Model an id is generated iff some cascade level emits it |
| `BaseCollection.HighestLevelWins` | lib/ruhoh/base/collection.rb:103-107 | an id's value is the pointer of the highest-precedence level that emits it (theme over base over system) |
| `BaseCollection.ScopedGenerateAgrees` | lib/ruhoh/base/collection.rb:109-111 | without a Model, and when every namespace directory that accepts `id` also lists it, `generate(id)` is `generate()` restricted to `id` |
| `BaseCollection.HiddenBelowTopScoped` | lib/ruhoh/base/collection.rb:143 | as written, `sub/.x` passes `valid_file?` though the glob never lists it, so `generate("sub/.x")` has a key `generate()` lacks |
| `BaseCollection.ScopedGenerateIntended` | lib/ruhoh/base/collection.rb:140-147 | with every path component checked for a leading '.', and the glob's own listing, `generate(id)` is `generate()` restricted to `id` for every id |
| `BaseCollection.Collection.GetModuleNamespace` | lib/ruhoh/base/collection.rb:201-222 | `use` resolves registered first, then built-in, else aborts naming the resource and type; without `use`, the registered type of the own name, else `Pages`, never aborting |
| `BaseCollection.UsePagesIsDefault` | lib/ruhoh/base/collection.rb:201-222 | `use: pages`, with no registered `pages` type, resolves to `Ruhoh::Base::Pages`, the module an unconfigured, unregistered resource gets |
| `BaseCollection.Collection.Provides` | lib/ruhoh/base/collection.rb:162-164 | `<kind>?` fails only when resolution aborts, and then with that abort; otherwise it says whether the resolved module defines the camelized kind |
| `BaseCollection.Collection.CompanionModule` | lib/ruhoh/base/collection.rb:158-160 | `<kind>` yields the resolved module iff it defines the constant, else the NameError for it; a resolution that aborts gives that abort |
| `BaseCollection.Collection.Generate` | lib/ruhoh/base/collection.rb:86-101 | the loop returns the ordered merge of the pointers' results; no files gives `{}`, never an error; the only error is the abort on `use` |
| `BaseCollection.Collection.Get` | lib/ruhoh/base/collection.rb:58-60 | `get(pointer)` is full generation followed by lookup of the pointer's id (nil when absent) |
| `BaseCollection.Collection.LoadModel` | lib/ruhoh/base/collection.rb:173-179 | `load_model` / `load_model_view` (and `find`) build the resolved module's Model for that pointer; without one, the NameError for it; on a bad `use`, the abort |
| `BaseCollection.Collection.LoadCollectionView` | lib/ruhoh/base/collection.rb:167-171 | memoised: the first call builds the module's CollectionView or the generic one on this collection; later calls return the same object |
| `BaseCollection.Collection.BuildOnView` | lib/ruhoh/base/collection.rb:181-191 | the companion class is looked up first; only then is the collection view loaded and the companion built on it; a view created by this call is a fresh view of this collection, from the module's CollectionView or the generic one |
| `BaseCollection.Collection.LoadClient` | lib/ruhoh/base/collection.rb:181-183 | memoised client built on the memoised collection view, which, when this call creates it, is this collection's view from the module's CollectionView or the generic one |
| `BaseCollection.Collection.LoadCompiler` | lib/ruhoh/base/collection.rb:185-187 | memoised compiler built on the memoised collection view, which, when this call creates it, is this collection's view from the module's CollectionView or the generic one |
| `BaseCollection.Collection.LoadWatcher` | lib/ruhoh/base/collection.rb:189-191 | memoised watcher built on the memoised collection view, which, when this call creates it, is this collection's view from the module's CollectionView or the generic one |
| `BaseCollection.Collection.LoadPreviewer` | lib/ruhoh/base/collection.rb:193-195 | memoised previewer of the resolved module, built on neither the collection view nor the collection |
| `BaseCollection.NoPathsGenerateEmpty` | lib/ruhoh/base/collection.rb:48-56 | when `paths?` is false, `generate` is `{}` and does not abort, whatever `use` says |
| `BaseCollection.GenerateKeysAreFileIds` | lib/ruhoh/base/collection.rb:88-97 | without a Model, the keys of `generate` are exactly the ids of `files` |
| `Registry.SelectDirectories` | lib/ruhoh/resources_interface.rb:72-74 | keeps exactly the listed names that are directories, except "plugins" |
| `Registry.CollectPages` | lib/ruhoh/resources_interface.rb:83-89 | `map { ... }.compact` keeps exactly the config keys whose block does not `next` |
| `Registry.CacheKeyInjective` | lib/ruhoh/resources_interface.rb:115 | for one class name, distinct resources have distinct cache variables |
| `Registry.CollectionKeyLegal` | lib/ruhoh/resources_interface.rb:115-116 | `@<resource>_collection` is a legal instance-variable name iff the resource name does not start with a digit and holds only identifier characters (`my-posts` and `2013` fail) |
| `Registry.ResourcesInterface.constructor` | lib/ruhoh/resources_interface.rb:47-49 | the registry starts with no cached instance |
| `Registry.ResourcesInterface.Discover` | lib/ruhoh/resources_interface.rb:70-76 | exactly the directory entries of the content root, never "plugins" |
| `Registry.ResourcesInterface.All` | lib/ruhoh/resources_interface.rb:51-55 | `discover` ∪ `registered`, each name once, never "compiled" |
| `Registry.ResourcesInterface.ActingAsPages` | lib/ruhoh/resources_interface.rb:78-92 | a name acts as a page iff it is a config key other than "theme", its `use` is absent or "pages", it is not a registered type other than pages/posts, and it is discovered |
| `Registry.ActingAsPagesByLookup` | lib/ruhoh/resources_interface.rb:78-92 | with distinct config keys, a name acts as a page iff `config[name]` exists, its `use` (as resolution reads it) is absent or "pages", and the other three conditions hold |
| `Registry.ResourcesInterface.NonPagesAsWritten` | lib/ruhoh/resources_interface.rb:94-99 | holds exactly the discovered or registered names that do not act as pages and are not "theme" or "compiled" |
| `Registry.ResourcesInterface.NonPages` | lib/ruhoh/resources_interface.rb:94-99 | the same names as written, each once |
| `Registry.NonPagesRepeatsName` | lib/ruhoh/resources_interface.rb:95 | a name both discovered and registered appears twice in `non_pages` as written |
| `Registry.ResourcesInterface.Exists` | lib/ruhoh/resources_interface.rb:101-104 | `exists?(name)` iff the name is discovered or registered and is not "compiled" |
| `Registry.ResourcesInterface.GetModuleNamespaceFor` | lib/ruhoh/resources_interface.rb:133-154 | the registry's resolver: `use` resolves registered, then built-in, else aborts; otherwise registered-by-name, else `Pages` |
| `Registry.ResolversAgree` | lib/ruhoh/resources_interface.rb:131-154 | the registry and the collection resolve every resource to the same module, or abort alike |
| `Registry.ResourcesInterface.CollectionClass` | lib/ruhoh/resources_interface.rb:23-25 | `collection(resource)` is the resolved module when it defines Collection, else a NameError; a resolution that aborts gives that abort |
| `Registry.ResourcesInterface.HasCollection` | lib/ruhoh/resources_interface.rb:27-29 | `collection?` fails with resolution's own abort and is true iff `collection` succeeds |
| `Registry.ResourcesInterface.LoadClassInstanceFor` | lib/ruhoh/resources_interface.rb:112-129 | a NameError when `@<resource>_<class>` is not a legal variable name; else the cached instance when one exists; else builds the module's class or the default Base::Collection on the registry's site, names it after the resource, caches it under `@<resource>_<class>` |
| `Registry.ResourcesInterface.LoadCollection` | lib/ruhoh/resources_interface.rb:31-38 | `load_collection` keeps the cache invariant (legal names, the registry's site, each collection named by its key); a loaded collection resolves its type exactly as the registry does and stays cached under its key; an error leaves the cache unchanged |
| `Registry.ResourcesInterface.LoadCollectionTwice` | lib/ruhoh/resources_interface.rb:108-111 | asking twice for one resource's collection yields the identical instance, cached under its key with every other slot unchanged; or the same error (the NameError of an illegal name, else resolution's abort) with the cache unchanged |

## Left out

- The `require` loops at load time (lib/ruhoh/resources_interface.rb:1-15): plumbing with no decision in it.
- Filesystem access (`FileUtils.cd`, `Dir[...]`, `File.directory?`, `File.exist?`): replaced by the `tree` map.
  - A directory's listing order is given, not computed; glob order is not specified.
  - Which paths `Dir['**/*']` lists is inside the given listing. `GlobLists` states a lower bound on what it lists (every existing path with no component starting with '.'); only the lemmas about the hidden-path finding assume it.
- `File.realpath`: the realpath is built as root/namespace/id. Symbolic links are not resolved.
  - The error `File.realpath` raises when a custom block accepts an id that does not exist is not modelled.
- `Regexp` semantics of exclude patterns: an abstract `matches(pattern, id)`. An invalid pattern raising is not modelled.
- Reflection (`const_get`, `const_defined?`, the `define_method` loop): replaced by the `constants` map per type module.
  - `registered` and `base` are given lists of names, not computed from `Ruhoh::Resources.constants` / `Ruhoh::Base.constants`.
  - A registered name whose camelized form is not the constant's real name (which would raise a NameError) is not modelled.
- `method_missing` / `respond_to?` and the `Whitelist`: `load_collection` is the plain method `LoadCollection`.
- Logging and console output: `Ruhoh::Utils.report`, the `Ruhoh.log.error` for a non-object config value, `Friend.say`.
- Registry.ResourcesInterface.ActingAsPages: a config value that is `true`, a number or a list makes `config["use"]` raise (resources_interface.rb:85); the model reads it as having no `use`, as resolution's `rescue nil` does.
- BaseCollection.Collection.ValidFile: the same values make `config['exclude']` raise (collection.rb:144); the model reads them as having no `exclude`.
- A YAML value under `use` or `exclude` that is not a string (or list of strings) is not modelled.
- config.yml as a parsed Hash has each key once; `config` is a sequence of entries that may repeat a key. On such input `Lookup` takes the first entry while `acting_as_pages` visits every entry. `ActingAsPagesByLookup` relates the two under `DistinctKeys`; the other members do not assume it.
- The custom block of `files` / `generate` is given the namespace directory's contents and the id. The block's second argument, the collection itself, and the directory's path name are not passed; a block can only depend on them through what it closes over.
- The external collaborators: `Model#generate` is an uninterpreted function of the module and the pointer; companion classes are recorded by kind and provider only.
  - A custom Collection subclass overriding `paths`, `glob` or `valid_file?` is not modelled: the base behaviour is.
- `resource_name` derived from the class name through `Ruhoh::Utils.underscore`: that code is not part of this model.
  - A new collection starts with an empty name until the registry assigns one.
  - `namespace` is taken to be the resource name itself (names are already in snake case).
- `load_client(opts)`: the options passed to the client constructor are not recorded; the memoised client ignores later options either way.
- `pointer["resource"] = resource_name` in `generate` rewrites a field that `files` already set to the same value. The model proves the two equal rather than mutating a shared hash.
- `camelize` is modelled on ASCII letters. Ruby's Unicode case mapping is not.

## Findings

| source | as written | input that shows it | evidently intended | confidence | as-written member | corrected member |
|---|---|---|---|---|---|---|
| lib/ruhoh/base/collection.rb:143 | `valid_file?` rejects only ids whose first character is '.', while the default glob also omits dot-files below the top, so an explicit id reaches files a full generation never sees | a namespace directory `posts` holding `sub/.x` and nothing else but `sub`: `generate("sub/.x")` has the key `sub/.x`, `generate()` does not | a path is hidden when any of its components starts with '.', so `generate(id)` is `generate()` restricted to `id` | medium, not executed | `BaseCollection.HiddenBelowTopScoped` | `BaseCollection.ScopedGenerateIntended` |
| lib/ruhoh/resources_interface.rb:94-99 | `non_pages` is `(discover + registered) - acting_as_pages` with no `uniq`, so a name that is both a content directory and a registered type appears twice | a site whose content root has a directory `layouts`, `layouts` registered, an empty config: `non_pages` is `["layouts", "layouts"]` | the names of `all` that do not act as pages, minus "theme", each once (a list of resource names, assumed to be read as a set of resources) | medium, not executed | `Registry.ResourcesInterface.NonPagesAsWritten`, `Registry.NonPagesRepeatsName` | `Registry.ResourcesInterface.NonPages` |

=== FILE: collection.dfy ===
/** Ruhoh::Base::Collection: the cascade of override roots, file discovery
    with validity filtering, the last-writer-wins merge of per-file results,
    type resolution for one resource, and the memoised companion objects. */
module BaseCollection {
  import opened Context
  import opened Naming

  /** One level of the cascade. */
  datatype PathLevel = PathLevel(name: string, path: string)

  /** The cascade built by `paths`: lowest precedence first. */
  function Cascade(p: PathConfig): seq<PathLevel>
  {
    [PathLevel("system", p.system), PathLevel("base", p.base)]
      + (if p.theme.Some? then [PathLevel("theme", p.theme.value)] else [])
  }

  /** `paths.map { |h| h["path"] }` */
  function Roots(levels: seq<PathLevel>): (roots: seq<string>)
    ensures |roots| == |levels|
    ensures forall i :: 0 <= i < |levels| ==> roots[i] == levels[i].path
  {
    if levels == [] then [] else [levels[0].path] + Roots(levels[1..])
  }

  /** `namespace`: the resource name (already in snake case). */
  function Namespace(resource: string): string
  {
    resource
  }

  /** The arguments of one `files` / `generate` call: the resource the
      collection stands for, the optional id or ids, and the optional
      custom validity block. The block runs with the namespace directory as
      its working directory, so it is given that directory with the id. */
  datatype Query = Query(resource: string, ids: Option<seq<string>>, filter: Option<(Dir, string) -> bool>)

  predicate Hidden(id: string)
  {
    |id| > 0 && id[0] == '.'
  }

  /** The default validity test, `valid_file?`, for an id inside directory `d`. */
  predicate ValidId(site: Site, d: Dir, excludes: seq<string>, id: string)
  {
    && id in d.kinds
    && d.kinds[id] == RegularFile
    && !Hidden(id)
    && forall k :: 0 <= k < |excludes| ==> !site.matches(excludes[k], id)
  }

  /** A candidate is kept by the block when one is given, else by `valid_file?`. */
  predicate Accepts(site: Site, q: Query, d: Dir, id: string)
  {
    if q.filter.Some? then q.filter.value(d, id) else ValidId(site, d, ExcludesOf(site, q.resource), id)
  }

  /** `id ? Array(id) : Dir[glob]` */
  function Candidates(d: Dir, ids: Option<seq<string>>): seq<string>
  {
    if ids.Some? then ids.value else d.listing
  }

  function DirAt(site: Site, root: string, ns: string): Dir
    requires IsNamespaceDir(site, root, ns)
  {
    site.tree[root][ns]
  }

  /** The pointer built for an accepted id under `root`. */
  function MakePointer(root: string, q: Query, id: string): Pointer
  {
    Pointer(id, Join(Join(root, Namespace(q.resource)), id), q.resource)
  }

  /** The pointers for the accepted ones among `cands`, in order. */
  function Emit(site: Site, q: Query, root: string, cands: seq<string>): seq<Pointer>
    requires IsNamespaceDir(site, root, Namespace(q.resource))
  {
    if cands == [] then []
    else
      var id := cands[|cands| - 1];
      Emit(site, q, root, cands[..|cands| - 1])
        + (if Accepts(site, q, DirAt(site, root, Namespace(q.resource)), id) then [MakePointer(root, q, id)] else [])
  }

  /** What one cascade root contributes: nothing when it has no namespace directory. */
  function RootFiles(site: Site, q: Query, root: string): seq<Pointer>
  {
    var ns := Namespace(q.resource);
    if IsNamespaceDir(site, root, ns) then Emit(site, q, root, Candidates(DirAt(site, root, ns), q.ids)) else []
  }

  /** The pointer list `files` returns for the roots `roots`, in cascade order. */
  function FileList(site: Site, q: Query, roots: seq<string>): seq<Pointer>
  {
    if roots == [] then []
    else FileList(site, q, roots[..|roots| - 1]) + RootFiles(site, q, roots[|roots| - 1])
  }

  /** Whether root `root` emits a pointer with id `id`. */
  predicate Emits(site: Site, q: Query, root: string, id: string)
  {
    var ns := Namespace(q.resource);
    && IsNamespaceDir(site, root, ns)
    && id in Candidates(DirAt(site, root, ns), q.ids)
    && Accepts(site, q, DirAt(site, root, ns), id)
  }

  /** The dictionary one pointer yields: the Model's output, or `{id => pointer}`. */
  function Contribution(site: Site, model: Option<TypeModule>, p: Pointer): map<string, Record>
  {
    if model.Some? then site.modelOutput(model.value, p) else map[p.id := PointerRecord(p)]
  }

  /** `dict.merge!(result)` over the pointers in order. */
  function Merge(site: Site, model: Option<TypeModule>, ps: seq<Pointer>): map<string, Record>
  {
    if ps == [] then map[]
    else Merge(site, model, ps[..|ps| - 1]) + Contribution(site, model, ps[|ps| - 1])
  }

  /** The first root holding the namespace directory (`Array#find`). */
  function FindRoot(site: Site, roots: seq<string>, ns: string): (r: Option<string>)
    ensures r.Some? <==> exists i :: 0 <= i < |roots| && IsNamespaceDir(site, roots[i], ns)
    ensures r.Some? ==> r.value in roots && IsNamespaceDir(site, r.value, ns)
  {
    if roots == [] then None
    else if IsNamespaceDir(site, roots[0], ns) then Some(roots[0])
    else FindRoot(site, roots[1..], ns)
  }

  // ---------------------------------------------------------------------
  // Discovery: cascade order, soundness, exclusion, the empty case
  // ---------------------------------------------------------------------

  /** One more root appends its pointers. */
  lemma FileListSnoc(site: Site, q: Query, roots: seq<string>, root: string)
    ensures FileList(site, q, roots + [root]) == FileList(site, q, roots) + RootFiles(site, q, root)
  {
    assert (roots + [root])[..|roots|] == roots;
  }

  /** One more root of a list, by prefix. */
  lemma FileListPrefix(site: Site, q: Query, roots: seq<string>, i: nat)
    requires i < |roots|
    ensures FileList(site, q, roots[..i + 1]) == FileList(site, q, roots[..i]) + RootFiles(site, q, roots[i])
  {
    assert roots[..i + 1][..i] == roots[..i];
  }

  /** One more candidate of a directory, by prefix. */
  lemma EmitPrefix(site: Site, q: Query, root: string, cands: seq<string>, j: nat)
    requires IsNamespaceDir(site, root, Namespace(q.resource))
    requires j < |cands|
    ensures Emit(site, q, root, cands[..j + 1]) == Emit(site, q, root, cands[..j])
      + (if Accepts(site, q, DirAt(site, root, Namespace(q.resource)), cands[j]) then [MakePointer(root, q, cands[j])] else [])
  {
    assert cands[..j + 1][..j] == cands[..j];
  }

  /** Discovery distributes over a split of the roots: every pointer from
      an earlier root precedes every pointer from a later root. */
  lemma {:induction false} FileListAppend(site: Site, q: Query, a: seq<string>, b: seq<string>)
    ensures FileList(site, q, a + b) == FileList(site, q, a) + FileList(site, q, b)
  {
    if b == [] {
      assert a + b == a;
    } else {
      var init, last := b[..|b| - 1], b[|b| - 1];
      calc {
        FileList(site, q, a + b);
        { assert a + b == (a + init) + [last];
          FileListSnoc(site, q, a + init, last); }
        FileList(site, q, a + init) + RootFiles(site, q, last);
        { FileListAppend(site, q, a, init); }
        (FileList(site, q, a) + FileList(site, q, init)) + RootFiles(site, q, last);
        FileList(site, q, a) + (FileList(site, q, init) + RootFiles(site, q, last));
        { assert b == init + [last];
          FileListSnoc(site, q, init, last); }
        FileList(site, q, a) + FileList(site, q, b);
      }
    }
  }

  /** Every emitted pointer is built for an accepted candidate. */
  lemma {:induction false} EmitSound(site: Site, q: Query, root: string, cands: seq<string>)
    requires IsNamespaceDir(site, root, Namespace(q.resource))
    ensures forall p :: p in Emit(site, q, root, cands) ==>
      && p.id in cands
      && p == MakePointer(root, q, p.id)
      && Accepts(site, q, DirAt(site, root, Namespace(q.resource)), p.id)
  {
    if cands != [] {
      var init := cands[..|cands| - 1];
      EmitSound(site, q, root, init);
      assert forall x :: x in init ==> x in cands;
    }
  }

  /** Every pointer `files` returns names the queried resource and comes
      from some cascade root whose namespace directory exists, where its
      id was a candidate that passed the validity test. */
  lemma {:induction false} FileListSound(site: Site, q: Query, roots: seq<string>)
    ensures forall p :: p in FileList(site, q, roots) ==>
      && p.resource == q.resource
      && exists i :: 0 <= i < |roots| && Emits(site, q, roots[i], p.id) && p == MakePointer(roots[i], q, p.id)
  {
    if roots != [] {
      var init := roots[..|roots| - 1];
      var last := roots[|roots| - 1];
      FileListSound(site, q, init);
      var ns := Namespace(q.resource);
      if IsNamespaceDir(site, last, ns) {
        EmitSound(site, q, last, Candidates(DirAt(site, last, ns), q.ids));
      }
      forall p | p in FileList(site, q, roots)
        ensures p.resource == q.resource
        ensures exists i :: 0 <= i < |roots| && Emits(site, q, roots[i], p.id) && p == MakePointer(roots[i], q, p.id)
      {
        if p in FileList(site, q, init) {
          var i :| 0 <= i < |init| && Emits(site, q, init[i], p.id) && p == MakePointer(init[i], q, p.id);
          assert roots[i] == init[i];
        } else {
          assert p in RootFiles(site, q, last);
          assert roots[|roots| - 1] == last;
        }
      }
    }
  }

  /** Every pointer `files` returns names the queried resource. */
  lemma FileListNamesResource(site: Site, q: Query, roots: seq<string>)
    ensures forall p :: p in FileList(site, q, roots) ==> p.resource == q.resource
  {
    FileListSound(site, q, roots);
  }

  /** Without a custom block, no pointer is hidden, a directory, missing or
      matched by any exclude pattern of the resource. */
  lemma ExclusionSound(site: Site, q: Query, roots: seq<string>)
    requires q.filter.None?
    ensures forall p :: p in FileList(site, q, roots) ==>
      && !Hidden(p.id)
      && (forall k :: 0 <= k < |ExcludesOf(site, q.resource)| ==> !site.matches(ExcludesOf(site, q.resource)[k], p.id))
      && exists i :: 0 <= i < |roots| && IsNamespaceDir(site, roots[i], Namespace(q.resource))
           && p.id in DirAt(site, roots[i], Namespace(q.resource)).kinds
           && DirAt(site, roots[i], Namespace(q.resource)).kinds[p.id] == RegularFile
  {
    FileListSound(site, q, roots);
  }

  /** With no namespace directory at any level, `files` finds nothing. */
  lemma {:induction false} NoDirectoryNoFiles(site: Site, q: Query, roots: seq<string>)
    requires forall i :: 0 <= i < |roots| ==> !IsNamespaceDir(site, roots[i], Namespace(q.resource))
    ensures FileList(site, q, roots) == []
  {
    if roots != [] {
      NoDirectoryNoFiles(site, q, roots[..|roots| - 1]);
    }
  }

  // ---------------------------------------------------------------------
  // Merging: last writer wins
  // ---------------------------------------------------------------------

  /** Merging one more pointer overrides with its contribution. */
  lemma MergeSnoc(site: Site, model: Option<TypeModule>, ps: seq<Pointer>, p: Pointer)
    ensures Merge(site, model, ps + [p]) == Merge(site, model, ps) + Contribution(site, model, p)
  {
    assert (ps + [p])[..|ps|] == ps;
  }

  /** Merging one more pointer of a list, by prefix. */
  lemma MergePrefix(site: Site, model: Option<TypeModule>, ps: seq<Pointer>, k: nat)
    requires k < |ps|
    ensures Merge(site, model, ps[..k + 1]) == Merge(site, model, ps[..k]) + Contribution(site, model, ps[k])
  {
    assert ps[..k + 1][..k] == ps[..k];
  }

  lemma {:induction false} MergeAppend(site: Site, model: Option<TypeModule>, a: seq<Pointer>, b: seq<Pointer>)
    ensures Merge(site, model, a + b) == Merge(site, model, a) + Merge(site, model, b)
  {
    if b == [] {
      assert a + b == a;
    } else {
      var init, last := b[..|b| - 1], b[|b| - 1];
      assert b == init + [last];
      assert a + b == (a + init) + [last];
      MergeSnoc(site, model, a + init, last);
      MergeSnoc(site, model, init, last);
      MergeAppend(site, model, a, init);
      MapUnionAssoc(Merge(site, model, a), Merge(site, model, init), Contribution(site, model, last));
    }
  }

  lemma MapUnionAssoc(x: map<string, Record>, y: map<string, Record>, z: map<string, Record>)
    ensures (x + y) + z == x + (y + z)
  {
  }

  /** The merged dictionary holds exactly the keys some pointer produced, and
      each key carries the value from the LAST pointer that produced it. */
  lemma LastWriterWins(site: Site, model: Option<TypeModule>, ps: seq<Pointer>)
    ensures forall x :: x in Merge(site, model, ps) <==>
      exists k :: 0 <= k < |ps| && x in Contribution(site, model, ps[k])
    ensures forall k, x ::
      0 <= k < |ps| && x in Contribution(site, model, ps[k]) &&
      (forall j :: k < j < |ps| ==> x !in Contribution(site, model, ps[j]))
      ==> x in Merge(site, model, ps) && Merge(site, model, ps)[x] == Contribution(site, model, ps[k])[x]
  {
    forall x | x in Merge(site, model, ps)
      ensures exists k :: 0 <= k < |ps| && x in Contribution(site, model, ps[k])
    {
      var k := MergedKeySource(site, model, ps, x);
    }
    forall k, x | 0 <= k < |ps| && x in Contribution(site, model, ps[k])
      ensures x in Merge(site, model, ps)
    {
      ContributedIsMerged(site, model, ps, k, x);
    }
    forall k, x | 0 <= k < |ps| && x in Contribution(site, model, ps[k]) &&
        (forall j :: k < j < |ps| ==> x !in Contribution(site, model, ps[j]))
      ensures x in Merge(site, model, ps) && Merge(site, model, ps)[x] == Contribution(site, model, ps[k])[x]
    {
      LastContributorWins(site, model, ps, k, x);
    }
  }

  /** A merged key was produced by some pointer, namely the returned one. */
  lemma {:induction false} MergedKeySource(site: Site, model: Option<TypeModule>, ps: seq<Pointer>, x: string)
    returns (k: nat)
    requires x in Merge(site, model, ps)
    ensures k < |ps| && x in Contribution(site, model, ps[k])
  {
    assert ps != [];
    var n := |ps| - 1;
    var init := ps[..n];
    assert ps == init + [ps[n]];
    MergeSnoc(site, model, init, ps[n]);
    if x in Contribution(site, model, ps[n]) {
      k := n;
    } else {
      k := MergedKeySource(site, model, init, x);
      assert init[k] == ps[k];
    }
  }

  /** A key some pointer produces is merged. */
  lemma {:induction false} ContributedIsMerged(site: Site, model: Option<TypeModule>, ps: seq<Pointer>, k: nat, x: string)
    requires k < |ps| && x in Contribution(site, model, ps[k])
    ensures x in Merge(site, model, ps)
  {
    var n := |ps| - 1;
    var init := ps[..n];
    assert ps == init + [ps[n]];
    MergeSnoc(site, model, init, ps[n]);
    if k < n {
      assert init[k] == ps[k];
      ContributedIsMerged(site, model, init, k, x);
    }
  }

  /** The pointer that produces a key last decides its value. */
  lemma {:induction false} LastContributorWins(site: Site, model: Option<TypeModule>, ps: seq<Pointer>, k: nat, x: string)
    requires k < |ps| && x in Contribution(site, model, ps[k])
    requires forall j :: k < j < |ps| ==> x !in Contribution(site, model, ps[j])
    ensures x in Merge(site, model, ps) && Merge(site, model, ps)[x] == Contribution(site, model, ps[k])[x]
  {
    var n := |ps| - 1;
    var init := ps[..n];
    assert ps == init + [ps[n]];
    MergeSnoc(site, model, init, ps[n]);
    if k < n {
      assert init[k] == ps[k];
      forall j | k < j < |init| ensures x !in Contribution(site, model, init[j]) {
        assert init[j] == ps[j];
      }
      LastContributorWins(site, model, init, k, x);
    }
  }

  /** Without a Model, the keys of the merge are exactly the pointer ids. */
  lemma NoModelKeysAreIds(site: Site, ps: seq<Pointer>)
    ensures forall x :: x in Merge(site, None, ps) <==> exists k :: 0 <= k < |ps| && ps[k].id == x
  {
    LastWriterWins(site, None, ps);
  }

  /** Without a Model, one directory's pointers merge to the map from each
      accepted candidate to its own pointer. */
  lemma EmitMerge(site: Site, q: Query, root: string, cands: seq<string>)
    requires IsNamespaceDir(site, root, Namespace(q.resource))
    ensures var m := Merge(site, None, Emit(site, q, root, cands));
      forall y :: y in m <==> y in cands && Accepts(site, q, DirAt(site, root, Namespace(q.resource)), y)
    ensures var m := Merge(site, None, Emit(site, q, root, cands));
      forall y :: y in m ==> m[y] == PointerRecord(MakePointer(root, q, y))
  {
    forall y
      ensures var m := Merge(site, None, Emit(site, q, root, cands));
        && (y in m <==> y in cands && Accepts(site, q, DirAt(site, root, Namespace(q.resource)), y))
        && (y in m ==> m[y] == PointerRecord(MakePointer(root, q, y)))
    {
      EmitMergeAt(site, q, root, cands, y);
    }
  }

  lemma {:induction false} EmitMergeAt(site: Site, q: Query, root: string, cands: seq<string>, y: string)
    requires IsNamespaceDir(site, root, Namespace(q.resource))
    ensures var m := Merge(site, None, Emit(site, q, root, cands));
      && (y in m <==> y in cands && Accepts(site, q, DirAt(site, root, Namespace(q.resource)), y))
      && (y in m ==> m[y] == PointerRecord(MakePointer(root, q, y)))
  {
    if cands != [] {
      var d := DirAt(site, root, Namespace(q.resource));
      var init, id := cands[..|cands| - 1], cands[|cands| - 1];
      var prev := Merge(site, None, Emit(site, q, root, init));
      var m := Merge(site, None, Emit(site, q, root, cands));
      assert y in cands <==> y in init || y == id by {
        assert cands == init + [id];
      }
      if Accepts(site, q, d, id) {
        var p := MakePointer(root, q, id);
        assert m == prev[id := PointerRecord(p)] by {
          assert Emit(site, q, root, cands) == Emit(site, q, root, init) + [p];
          MergeSnoc(site, None, Emit(site, q, root, init), p);
        }
      } else {
        assert m == prev by {
          assert Emit(site, q, root, cands) == Emit(site, q, root, init);
        }
      }
      EmitMergeAt(site, q, root, init, y);
    }
  }

  /** Without a Model, what one root contributes to the dictionary: each id
      it emits, mapped to that root's pointer. */
  lemma RootMerge(site: Site, q: Query, root: string)
    ensures var m := Merge(site, None, RootFiles(site, q, root));
      forall y :: y in m <==> Emits(site, q, root, y)
    ensures var m := Merge(site, None, RootFiles(site, q, root));
      forall y :: y in m ==> m[y] == PointerRecord(MakePointer(root, q, y))
  {
    forall y
      ensures var m := Merge(site, None, RootFiles(site, q, root));
        && (y in m <==> Emits(site, q, root, y))
        && (y in m ==> m[y] == PointerRecord(MakePointer(root, q, y)))
    {
      RootMergeAt(site, q, root, y);
    }
  }

  lemma RootMergeAt(site: Site, q: Query, root: string, y: string)
    ensures var m := Merge(site, None, RootFiles(site, q, root));
      && (y in m <==> Emits(site, q, root, y))
      && (y in m ==> m[y] == PointerRecord(MakePointer(root, q, y)))
  {
    var ns := Namespace(q.resource);
    if IsNamespaceDir(site, root, ns) {
      EmitMergeAt(site, q, root, Candidates(DirAt(site, root, ns), q.ids), y);
    }
  }

  lemma GenerateByLevels(site: Site, model: Option<TypeModule>, q: Query, roots: seq<string>)
    requires roots != []
    ensures Merge(site, model, FileList(site, q, roots)) ==
      Merge(site, model, FileList(site, q, roots[..|roots| - 1])) + Merge(site, model, RootFiles(site, q, roots[|roots| - 1]))
  {
    MergeAppend(site, model, FileList(site, q, roots[..|roots| - 1]), RootFiles(site, q, roots[|roots| - 1]));
  }

  /** Without a Model, an id is in the generated dictionary iff some
      cascade level emits it. */
  lemma GeneratedKeys(site: Site, q: Query, roots: seq<string>)
    ensures forall x :: x in Merge(site, None, FileList(site, q, roots)) <==>
      exists i :: 0 <= i < |roots| && Emits(site, q, roots[i], x)
  {
    forall x | x in Merge(site, None, FileList(site, q, roots))
      ensures exists i :: 0 <= i < |roots| && Emits(site, q, roots[i], x)
    {
      var i := GeneratedIsEmitted(site, q, roots, x);
    }
    forall x, i | 0 <= i < |roots| && Emits(site, q, roots[i], x)
      ensures x in Merge(site, None, FileList(site, q, roots))
    {
      EmittedIsGenerated(site, q, roots, i, x);
    }
  }

  /** An id some level emits is generated. */
  lemma {:induction false} EmittedIsGenerated(site: Site, q: Query, roots: seq<string>, i: nat, x: string)
    requires i < |roots| && Emits(site, q, roots[i], x)
    ensures x in Merge(site, None, FileList(site, q, roots))
  {
    var n := |roots| - 1;
    var init := roots[..n];
    GenerateByLevels(site, None, q, roots);
    RootMergeAt(site, q, roots[n], x);
    if i < n {
      assert init[i] == roots[i];
      EmittedIsGenerated(site, q, init, i, x);
    }
  }

  /** A generated id was emitted by some level, namely the returned one. */
  lemma {:induction false} GeneratedIsEmitted(site: Site, q: Query, roots: seq<string>, x: string) returns (i: nat)
    requires x in Merge(site, None, FileList(site, q, roots))
    ensures i < |roots| && Emits(site, q, roots[i], x)
  {
    assert roots != [];
    var n := |roots| - 1;
    var init := roots[..n];
    GenerateByLevels(site, None, q, roots);
    RootMergeAt(site, q, roots[n], x);
    if x in Merge(site, None, RootFiles(site, q, roots[n])) {
      i := n;
    } else {
      i := GeneratedIsEmitted(site, q, init, x);
      assert init[i] == roots[i];
    }
  }

  /** Looking an id up in the generated dictionary: the last level first. */
  lemma LevelLookup(site: Site, q: Query, roots: seq<string>, x: string)
    requires roots != []
    ensures var m := Merge(site, None, FileList(site, q, roots));
      var a := Merge(site, None, FileList(site, q, roots[..|roots| - 1]));
      var b := Merge(site, None, RootFiles(site, q, roots[|roots| - 1]));
      && (x in m <==> x in a || x in b)
      && (x in b ==> m[x] == b[x])
      && (x !in b && x in a ==> m[x] == a[x])
  {
    GenerateByLevels(site, None, q, roots);
  }

  /** Override semantics of the cascade, without a Model: an id's value is
      the pointer from the highest-precedence level that emits it. */
  lemma {:induction false} HighestLevelWins(site: Site, q: Query, roots: seq<string>, i: nat, x: string)
    requires i < |roots| && Emits(site, q, roots[i], x)
    requires forall j :: i < j < |roots| ==> !Emits(site, q, roots[j], x)
    ensures x in Merge(site, None, FileList(site, q, roots))
    ensures Merge(site, None, FileList(site, q, roots))[x] == PointerRecord(MakePointer(roots[i], q, x))
  {
    var n := |roots| - 1;
    var init := roots[..n];
    var a := Merge(site, None, FileList(site, q, init));
    var b := Merge(site, None, RootFiles(site, q, roots[n]));
    var p := PointerRecord(MakePointer(roots[i], q, x));
    if i < n {
      assert x in a && a[x] == p by {
        assert roots[i] == init[i];
        forall j | i < j < |init| ensures !Emits(site, q, init[j], x) {
          assert init[j] == roots[j];
        }
        HighestLevelWins(site, q, init, i, x);
      }
      assert x !in b by {
        RootMergeAt(site, q, roots[n], x);
      }
    } else {
      assert x in b && b[x] == p by {
        RootMergeAt(site, q, roots[n], x);
      }
    }
    LevelLookup(site, q, roots, x);
  }

  /** In every namespace directory of `roots` that accepts `x`, the
      listing names `x`. */
  predicate AcceptedIsListed(site: Site, q: Query, roots: seq<string>, x: string)
  {
    forall i :: 0 <= i < |roots| && IsNamespaceDir(site, roots[i], Namespace(q.resource)) ==>
      (Accepts(site, q, DirAt(site, roots[i], Namespace(q.resource)), x) ==>
        x in DirAt(site, roots[i], Namespace(q.resource)).listing)
  }

  /** `generate(id)` agrees with `generate()` restricted to that id, when
      there is no Model and, wherever the validity test accepts that id,
      the glob lists it. */
  lemma {:induction false} ScopedGenerateAgrees(site: Site, q: Query, roots: seq<string>, x: string)
    requires q.ids.None?
    requires AcceptedIsListed(site, q, roots, x)
    ensures var full := Merge(site, None, FileList(site, q, roots));
      var scoped := Merge(site, None, FileList(site, q.(ids := Some([x])), roots));
      (forall y :: y in scoped <==> y == x && x in full) && (x in full ==> scoped[x] == full[x])
  {
    var qx := q.(ids := Some([x]));
    if roots != [] {
      var n := |roots| - 1;
      var init := roots[..n];
      var ns := Namespace(q.resource);
      assert AcceptedIsListed(site, q, init, x) by {
        forall i | 0 <= i < |init| && IsNamespaceDir(site, init[i], ns)
          ensures Accepts(site, q, DirAt(site, init[i], ns), x) ==> x in DirAt(site, init[i], ns).listing
        {
          assert init[i] == roots[i];
        }
      }
      ScopedGenerateAgrees(site, q, init, x);
      ScopedRoot(site, q, roots[n], x);
      GenerateByLevels(site, None, q, roots);
      GenerateByLevels(site, None, qx, roots);
      var full, fa, fb := Merge(site, None, FileList(site, q, roots)),
        Merge(site, None, FileList(site, q, init)), Merge(site, None, RootFiles(site, q, roots[n]));
      var scoped, sa, sb := Merge(site, None, FileList(site, qx, roots)),
        Merge(site, None, FileList(site, qx, init)), Merge(site, None, RootFiles(site, qx, roots[n]));
      assert full == fa + fb && scoped == sa + sb;
      forall y ensures y in scoped <==> y == x && x in full {
        assert y in scoped <==> y in sa || y in sb;
      }
    } else {
      assert FileList(site, qx, roots) == [];
    }
  }

  /** The step of `ScopedGenerateAgrees` for one root. */
  lemma ScopedRoot(site: Site, q: Query, root: string, x: string)
    requires q.ids.None?
    requires IsNamespaceDir(site, root, Namespace(q.resource)) ==>
      (Accepts(site, q, DirAt(site, root, Namespace(q.resource)), x) ==>
        x in DirAt(site, root, Namespace(q.resource)).listing)
    ensures var full := Merge(site, None, RootFiles(site, q, root));
      var scoped := Merge(site, None, RootFiles(site, q.(ids := Some([x])), root));
      (forall y :: y in scoped <==> y == x && x in full) && (x in full ==> scoped[x] == full[x])
  {
    var qx := q.(ids := Some([x]));
    var ns := Namespace(q.resource);
    forall y
      ensures var full := Merge(site, None, RootFiles(site, q, root));
        var scoped := Merge(site, None, RootFiles(site, qx, root));
        (y in scoped <==> y == x && x in full) && (y == x && x in full ==> scoped[x] == full[x])
    {
      RootMergeAt(site, q, root, y);
      RootMergeAt(site, qx, root, y);
      if IsNamespaceDir(site, root, ns) {
        var d := DirAt(site, root, ns);
        assert Accepts(site, qx, d, y) == Accepts(site, q, d, y);
      }
    }
  }

  /** Some component of the path starts with '.'. */
  predicate HiddenPath(id: string)
  {
    exists i :: 0 <= i < |id| && id[i] == '.' && (i == 0 || id[i - 1] == '/')
  }

  /** What `Dir[glob]` lists for the default recursive glob: every path
      below the directory none of whose components starts with '.'. */
  ghost predicate GlobLists(d: Dir)
  {
    forall y :: y in d.kinds && !HiddenPath(y) ==> y in d.listing
  }

  /** The validity test as written accepts `sub/.x`, a dot-file the glob
      never lists: `generate("sub/.x")` yields a key that `generate()` lacks. */
  lemma HiddenBelowTopScoped(site: Site)
    requires site.paths == PathConfig("system", "base", None)
    requires site.tree == map["system" := map["posts" := Dir(["sub"], map["sub" := Directory, "sub/.x" := RegularFile])]]
    requires site.config == []
    ensures GlobLists(site.tree["system"]["posts"])
    ensures var roots := Roots(Cascade(site.paths));
      var q := Query("posts", None, None);
      && "sub/.x" in Merge(site, None, FileList(site, q.(ids := Some(["sub/.x"])), roots))
      && "sub/.x" !in Merge(site, None, FileList(site, q, roots))
  {
    HiddenBelowTopPaths();
    var roots := Roots(Cascade(site.paths));
    assert roots == ["system", "base"] by {
      assert Cascade(site.paths) == [PathLevel("system", "system"), PathLevel("base", "base")];
    }
    var d := site.tree["system"]["posts"];
    assert IsNamespaceDir(site, "system", "posts") && !IsNamespaceDir(site, "base", "posts");
    assert d.listing == ["sub"] && "sub/.x" != "sub";
    var q := Query("posts", None, None);
    var qx := q.(ids := Some(["sub/.x"]));
    assert Emits(site, qx, roots[0], "sub/.x") by {
      assert ExcludesOf(site, "posts") == [];
      assert "sub/.x" in d.kinds && d.kinds["sub/.x"] == RegularFile;
      assert ValidId(site, d, [], "sub/.x");
    }
    EmittedIsGenerated(site, qx, roots, 0, "sub/.x");
    assert !Emits(site, q, roots[0], "sub/.x") && !Emits(site, q, roots[1], "sub/.x");
    if "sub/.x" in Merge(site, None, FileList(site, q, roots)) {
      var i := GeneratedIsEmitted(site, q, roots, "sub/.x");
      assert false;
    }
  }

  /** The two paths of `HiddenBelowTopScoped`: `sub/.x` is hidden below the
      top and not at it, `sub` is not hidden. */
  lemma HiddenBelowTopPaths()
    ensures HiddenPath("sub/.x") && !Hidden("sub/.x")
    ensures !HiddenPath("sub")
  {
    assert "sub/.x"[4] == '.' && "sub/.x"[3] == '/';
    forall i | 0 <= i < 3 ensures "sub"[i] != '.' {
    }
  }

  /** The evidently intended validity test: `valid_file?` with every
      component of the path, not only the first, checked for a leading '.'. */
  predicate ValidIdIntended(site: Site, d: Dir, excludes: seq<string>, id: string)
  {
    ValidId(site, d, excludes, id) && !HiddenPath(id)
  }

  /** The intended test, in the form of a validity block for `resource`. */
  function IntendedTest(site: Site, resource: string): (Dir, string) -> bool
  {
    (d: Dir, id: string) => ValidIdIntended(site, d, ExcludesOf(site, resource), id)
  }

  /** With the intended test and the glob's own listing, `generate(id)`
      agrees with `generate()` restricted to that id, for every id. */
  lemma ScopedGenerateIntended(site: Site, resource: string, roots: seq<string>, x: string)
    requires forall i :: 0 <= i < |roots| && IsNamespaceDir(site, roots[i], Namespace(resource)) ==>
      GlobLists(DirAt(site, roots[i], Namespace(resource)))
    ensures var q := Query(resource, None, Some(IntendedTest(site, resource)));
      var full := Merge(site, None, FileList(site, q, roots));
      var scoped := Merge(site, None, FileList(site, q.(ids := Some([x])), roots));
      (forall y :: y in scoped <==> y == x && x in full) && (x in full ==> scoped[x] == full[x])
  {
    var q := Query(resource, None, Some(IntendedTest(site, resource)));
    ScopedGenerateAgrees(site, q, roots, x);
  }

  /** Which class an object was instantiated from: the resolved module's
      own constant, or the generic one from Ruhoh::Base. */
  datatype Provider = Custom(owner: TypeModule) | Generic

  /** A model built for one pointer (`model.new(ruhoh, pointer)`). */
  datatype ModelInstance = ModelInstance(kind: string, owner: TypeModule, pointer: Pointer)

  /** A memoised companion object (collection view, client, compiler,
      watcher, previewer) and what it was built on. */
  class Companion {
    const kind: string
    const provider: Provider
    const collection: Collection?
    const view: Companion?

    constructor (kind: string, provider: Provider, collection: Collection?, view: Companion?)
      ensures this.kind == kind && this.provider == provider
      ensures this.collection == collection && this.view == view
    {
      this.kind := kind;
      this.provider := provider;
      this.collection := collection;
      this.view := view;
    }
  }

  class Collection {
    /** `@ruhoh` */
    const site: Site
    /** The class this object is an instance of. */
    const impl: Provider
    var resourceName: string
    var collectionView: Companion?
    var client: Companion?
    var compiler: Companion?
    var watcher: Companion?
    var previewer: Companion?

    /** `initialize(ruhoh)`. The resource name starts empty, standing for the
        name derived from the class name, until the registry assigns one. */
    constructor (site: Site, impl: Provider)
      ensures this.site == site && this.impl == impl && resourceName == ""
      ensures collectionView == null && client == null && compiler == null
      ensures watcher == null && previewer == null
    {
      this.site := site;
      this.impl := impl;
      resourceName := "";
      collectionView, client, compiler, watcher, previewer := null, null, null, null, null;
    }

    function Request(ids: Option<seq<string>>, filter: Option<(Dir, string) -> bool>): Query
      reads this
    {
      Query(resourceName, ids, filter)
    }

    function CascadeRoots(): seq<string>
      reads this
    {
      Roots(Cascade(site.paths))
    }

    /** `paths`: system, then base, then the theme when one is configured. */
    method Paths() returns (a: seq<PathLevel>)
      ensures |a| == (if site.paths.theme.Some? then 3 else 2)
      ensures a[0] == PathLevel("system", site.paths.system)
      ensures a[1] == PathLevel("base", site.paths.base)
      ensures site.paths.theme.Some? ==> a[2] == PathLevel("theme", site.paths.theme.value)
      ensures a == Cascade(site.paths)
    {
      a := [PathLevel("system", site.paths.system), PathLevel("base", site.paths.base)];
      if site.paths.theme.Some? {
        a := a + [PathLevel("theme", site.paths.theme.value)];
      }
    }

    /** `paths?`: some cascade level has a directory for this namespace. */
    function HasPaths(): (b: bool)
      reads this
      ensures var roots := CascadeRoots();
        b <==> exists i :: 0 <= i < |roots| && IsNamespaceDir(site, roots[i], Namespace(resourceName))
    {
      FindRoot(site, CascadeRoots(), Namespace(resourceName)).Some?
    }

    /** `valid_file?(id)` run inside the namespace directory `d`. */
    method ValidFile(d: Dir, id: string) returns (ok: bool)
      ensures ok == ValidId(site, d, ExcludesOf(site, resourceName), id)
    {
      if id !in d.kinds {
        return false;
      }
      if d.kinds[id] == Directory {
        return false;
      }
      if |id| > 0 && id[0] == '.' {
        return false;
      }
      var excludes := ExcludesOf(site, resourceName);
      for k := 0 to |excludes|
        invariant forall j :: 0 <= j < k ==> !site.matches(excludes[j], id)
      {
        if site.matches(excludes[k], id) {
          return false;
        }
      }
      return true;
    }

    /** The block `files` runs inside one namespace directory: every
        candidate id the block (or `valid_file?`) accepts, as a pointer. */
    method FilesIn(path: string, q: Query) returns (ps: seq<Pointer>)
      requires q.resource == resourceName
      requires IsNamespaceDir(site, path, Namespace(q.resource))
      ensures ps == RootFiles(site, q, path)
    {
      var d := site.tree[path][Namespace(q.resource)];
      var cands := Candidates(d, q.ids);
      ps := [];
      for j := 0 to |cands|
        invariant ps == Emit(site, q, path, cands[..j])
      {
        var id := cands[j];
        var valid;
        if q.filter.Some? {
          valid := q.filter.value(d, id);
        } else {
          valid := ValidFile(d, id);
        }
        EmitPrefix(site, q, path, cands, j);
        if valid {
          ps := ps + [MakePointer(path, q, id)];
        }
      }
      assert cands[..|cands|] == cands;
    }

    /** `files(id, &block)`: the pointers of every cascade level in order. */
    method Files(ids: Option<seq<string>>, filter: Option<(Dir, string) -> bool>) returns (a: seq<Pointer>)
      ensures a == FileList(site, Request(ids, filter), CascadeRoots())
    {
      var q := Request(ids, filter);
      var ns := Namespace(resourceName);
      var levels := Paths();
      var roots := Roots(levels);
      a := [];
      for i := 0 to |roots|
        invariant a == FileList(site, q, roots[..i])
      {
        var path := roots[i];
        FileListPrefix(site, q, roots, i);
        if IsNamespaceDir(site, path, ns) {
          var ps := FilesIn(path, q);
          a := a + ps;
        }
      }
      assert roots[..|roots|] == roots;
    }

    /** `get_module_namespace`: the module that implements this resource. */
    function GetModuleNamespace(): (r: Result<TypeModule, LoadError>)
      reads this
      ensures var use := UseOf(site, resourceName);
        r.Err? <==> use.Some? && use.value !in site.registered && use.value !in site.baseTypes
      ensures r.Err? ==> r.error == Abort(resourceName, UseOf(site, resourceName).value)
      ensures var use := UseOf(site, resourceName);
        use.Some? && use.value in site.registered ==> r == Ok(ResourcesModule(Camelize(use.value)))
      ensures var use := UseOf(site, resourceName);
        use.Some? && use.value !in site.registered && use.value in site.baseTypes ==>
          r == Ok(BaseModule(Camelize(use.value)))
      ensures UseOf(site, resourceName).None? ==>
        r == if resourceName in site.registered then Ok(ResourcesModule(Camelize(resourceName)))
             else Ok(BaseModule("Pages"))
    {
      var use := UseOf(site, resourceName);
      if use.Some? then
        if use.value in site.registered then Ok(ResourcesModule(Camelize(use.value)))
        else if use.value in site.baseTypes then Ok(BaseModule(Camelize(use.value)))
        else Err(Abort(resourceName, use.value))
      else if resourceName in site.registered then Ok(ResourcesModule(Camelize(resourceName)))
      else Ok(BaseModule("Pages"))
    }

    /** `<kind>?`: whether the resolved module defines the companion class. */
    function Provides(kind: string): (r: Result<bool, LoadError>)
      reads this
      ensures r.Err? <==> GetModuleNamespace().Err?
      ensures GetModuleNamespace().Err? ==> r == Err(GetModuleNamespace().error)
      ensures r.Ok? ==> (r.value <==> Defines(site, GetModuleNamespace().value, Camelize(kind)))
    {
      match GetModuleNamespace()
      case Err(e) => Err(e)
      case Ok(m) => Ok(Defines(site, m, Camelize(kind)))
    }

    /** `<kind>`: the module whose constant `<Kind>` is the companion
        class, or the NameError of a module that lacks it. */
    function CompanionModule(kind: string): (r: Result<TypeModule, LoadError>)
      reads this
      ensures r.Ok? <==> Provides(kind) == Ok(true)
      ensures r.Ok? ==> r == GetModuleNamespace()
      ensures Provides(kind) == Ok(false) ==> r == Err(Undefined(GetModuleNamespace().value, Camelize(kind)))
      ensures GetModuleNamespace().Err? ==> r == Err(GetModuleNamespace().error)
    {
      match GetModuleNamespace()
      case Err(e) => Err(e)
      case Ok(m) => if Defines(site, m, Camelize(kind)) then Ok(m) else Err(Undefined(m, Camelize(kind)))
    }

    /** `model?` decided once: the module whose Model generates, or none. */
    function ModelModule(): Result<Option<TypeModule>, LoadError>
      reads this
    {
      match Provides("model")
      case Err(e) => Err(e)
      case Ok(b) => Ok(if b then Some(GetModuleNamespace().value) else None)
    }

    /** What `generate(id, &block)` returns. */
    function GenerateResult(ids: Option<seq<string>>, filter: Option<(Dir, string) -> bool>): Result<map<string, Record>, LoadError>
      reads this
    {
      var ps := FileList(site, Request(ids, filter), CascadeRoots());
      if ps == [] then Ok(map[])
      else
        match ModelModule()
        case Err(e) => Err(e)
        case Ok(m) => Ok(Merge(site, m, ps))
    }

    /** `generate(id, &block)`: merge every pointer's result in cascade
        order; a misconfigured `use` aborts only once a pointer exists. */
    method Generate(ids: Option<seq<string>>, filter: Option<(Dir, string) -> bool>) returns (r: Result<map<string, Record>, LoadError>)
      ensures r == GenerateResult(ids, filter)
      ensures FileList(site, Request(ids, filter), CascadeRoots()) == [] ==> r == Ok(map[])
      ensures r.Err? ==> r.error == Abort(resourceName, UseOf(site, resourceName).value)
    {
      var ps := Files(ids, filter);
      FileListNamesResource(site, Request(ids, filter), CascadeRoots());
      ghost var model := ModelModule();
      var dict: map<string, Record> := map[];
      for k := 0 to |ps|
        invariant k == 0 ==> dict == map[]
        invariant k > 0 ==> model.Ok? && dict == Merge(site, model.value, ps[..k])
      {
        var m := ModelModule();
        if m.Err? {
          return Err(m.error);
        }
        MergePrefix(site, m.value, ps, k);
        // `pointer["resource"] = resource_name`: `files` already set it.
        var p := ps[k].(resource := resourceName);
        assert ps[k] in ps;
        assert p == ps[k];
        dict := dict + Contribution(site, m.value, p);
      }
      assert ps[..|ps|] == ps;
      return Ok(dict);
    }

    /** `get(pointer)`: full generation, then the pointer's id (nil when absent). */
    method Get(pointer: Pointer) returns (r: Result<Option<Record>, LoadError>)
      ensures GenerateResult(None, None).Err? ==> r == Err(GenerateResult(None, None).error)
      ensures GenerateResult(None, None).Ok? ==>
        var dict := GenerateResult(None, None).value;
        r == Ok(if pointer.id in dict then Some(dict[pointer.id]) else None)
    {
      var g := Generate(None, None);
      if g.Err? {
        return Err(g.error);
      }
      var dict := g.value;
      return Ok(if pointer.id in dict then Some(dict[pointer.id]) else None);
    }

    /** `load_model(opts)` / `load_model_view(opts)`, and `find(pointer)`. */
    function LoadModel(kind: string, pointer: Pointer): (r: Result<ModelInstance, LoadError>)
      reads this
      requires kind == "model" || kind == "model_view"
      ensures r.Ok? <==> Provides(kind) == Ok(true)
      ensures r.Ok? ==>
        && r.value.pointer == pointer && r.value.kind == kind
        && r.value.owner == GetModuleNamespace().value
        && Defines(site, r.value.owner, Camelize(kind))
      ensures Provides(kind) == Ok(false) ==> r == Err(Undefined(GetModuleNamespace().value, Camelize(kind)))
      ensures GetModuleNamespace().Err? ==> r == Err(GetModuleNamespace().error)
    {
      match CompanionModule(kind)
      case Err(e) => Err(e)
      case Ok(m) => Ok(ModelInstance(kind, m, pointer))
    }

    /** `load_collection_view`: memoised; the module's CollectionView when
        it has one, else the generic Base::CollectionView, built on this
        collection. */
    method LoadCollectionView() returns (r: Result<Companion, LoadError>)
      modifies this`collectionView
      ensures old(collectionView) != null ==> r == Ok(old(collectionView)) && collectionView == old(collectionView)
      ensures old(collectionView) == null ==>
        match Provides("collection_view")
        case Err(e) => r == Err(e) && collectionView == null
        case Ok(b) =>
          && r.Ok? && fresh(r.value) && collectionView == r.value
          && r.value.kind == "collection_view" && r.value.collection == this && r.value.view == null
          && r.value.provider == (if b then Custom(GetModuleNamespace().value) else Generic)
    {
      if collectionView != null {
        return Ok(collectionView);
      }
      var has := Provides("collection_view");
      if has.Err? {
        return Err(has.error);
      }
      var provider := if has.value then Custom(GetModuleNamespace().value) else Generic;
      var v := new Companion("collection_view", provider, this, null);
      collectionView := v;
      return Ok(v);
    }

    /** `v` is this collection's view as `load_collection_view` builds it
        when `m` implements the resource. */
    predicate IsViewFor(v: Companion, m: TypeModule)
    {
      && v.kind == "collection_view" && v.collection == this && v.view == null
      && v.provider == (if Defines(site, m, Camelize("collection_view")) then Custom(m) else Generic)
    }

    /** `kind.new(load_collection_view, ...)`: the companion class is looked
        up first, then the collection view is loaded (and memoised). */
    method BuildOnView(kind: string) returns (r: Result<Companion, LoadError>)
      modifies this`collectionView
      ensures match CompanionModule(kind)
        case Err(e) => r == Err(e) && collectionView == old(collectionView)
        case Ok(m) =>
          && r.Ok? && fresh(r.value) && collectionView != null
          && (old(collectionView) != null ==> collectionView == old(collectionView))
          && (old(collectionView) == null ==> fresh(collectionView) && IsViewFor(collectionView, m))
          && r.value.kind == kind && r.value.provider == Custom(m)
          && r.value.view == collectionView && r.value.collection == null
    {
      var m := CompanionModule(kind);
      if m.Err? {
        return Err(m.error);
      }
      var v := LoadCollectionView();
      var c := new Companion(kind, Custom(m.value), null, v.value);
      return Ok(c);
    }

    /** `load_client(opts)`: memoised. */
    method LoadClient() returns (r: Result<Companion, LoadError>)
      modifies this`client, this`collectionView
      ensures old(client) != null ==> r == Ok(old(client)) && client == old(client) && collectionView == old(collectionView)
      ensures old(client) == null ==>
        match CompanionModule("client")
        case Err(e) => r == Err(e) && client == null && collectionView == old(collectionView)
        case Ok(m) =>
          && r.Ok? && fresh(r.value) && client == r.value
          && r.value.kind == "client" && r.value.provider == Custom(m)
          && collectionView != null && r.value.view == collectionView
          && (old(collectionView) != null ==> collectionView == old(collectionView))
          && (old(collectionView) == null ==> fresh(collectionView) && IsViewFor(collectionView, m))
    {
      if client != null {
        return Ok(client);
      }
      r := BuildOnView("client");
      if r.Ok? {
        client := r.value;
      }
    }

    /** `load_compiler`: memoised. */
    method LoadCompiler() returns (r: Result<Companion, LoadError>)
      modifies this`compiler, this`collectionView
      ensures old(compiler) != null ==> r == Ok(old(compiler)) && compiler == old(compiler) && collectionView == old(collectionView)
      ensures old(compiler) == null ==>
        match CompanionModule("compiler")
        case Err(e) => r == Err(e) && compiler == null && collectionView == old(collectionView)
        case Ok(m) =>
          && r.Ok? && fresh(r.value) && compiler == r.value
          && r.value.kind == "compiler" && r.value.provider == Custom(m)
          && collectionView != null && r.value.view == collectionView
          && (old(collectionView) != null ==> collectionView == old(collectionView))
          && (old(collectionView) == null ==> fresh(collectionView) && IsViewFor(collectionView, m))
    {
      if compiler != null {
        return Ok(compiler);
      }
      r := BuildOnView("compiler");
      if r.Ok? {
        compiler := r.value;
      }
    }

    /** `load_watcher`: memoised. */
    method LoadWatcher() returns (r: Result<Companion, LoadError>)
      modifies this`watcher, this`collectionView
      ensures old(watcher) != null ==> r == Ok(old(watcher)) && watcher == old(watcher) && collectionView == old(collectionView)
      ensures old(watcher) == null ==>
        match CompanionModule("watcher")
        case Err(e) => r == Err(e) && watcher == null && collectionView == old(collectionView)
        case Ok(m) =>
          && r.Ok? && fresh(r.value) && watcher == r.value
          && r.value.kind == "watcher" && r.value.provider == Custom(m)
          && collectionView != null && r.value.view == collectionView
          && (old(collectionView) != null ==> collectionView == old(collectionView))
          && (old(collectionView) == null ==> fresh(collectionView) && IsViewFor(collectionView, m))
    {
      if watcher != null {
        return Ok(watcher);
      }
      r := BuildOnView("watcher");
      if r.Ok? {
        watcher := r.value;
      }
    }

    /** `load_previewer`: memoised; built on neither the collection view nor
        the collection (the site argument of `previewer.new` is not recorded). */
    method LoadPreviewer() returns (r: Result<Companion, LoadError>)
      modifies this`previewer
      ensures old(previewer) != null ==> r == Ok(old(previewer)) && previewer == old(previewer)
      ensures old(previewer) == null ==>
        match CompanionModule("previewer")
        case Err(e) => r == Err(e) && previewer == null
        case Ok(m) =>
          && r.Ok? && fresh(r.value) && previewer == r.value
          && r.value.kind == "previewer" && r.value.provider == Custom(m)
          && r.value.view == null && r.value.collection == null
    {
      if previewer != null {
        return Ok(previewer);
      }
      var m := CompanionModule("previewer");
      if m.Err? {
        return Err(m.error);
      }
      var p := new Companion("previewer", Custom(m.value), null, null);
      previewer := p;
      return Ok(p);
    }
  }

  /** `use: pages` names the built-in Pages type, so a resource configured
      that way (with no registered type of that name installed) resolves to
      the module an unconfigured, unregistered resource gets. */
  lemma UsePagesIsDefault(c: Collection)
    requires UseOf(c.site, c.resourceName) == Some("pages")
    requires "pages" !in c.site.registered && "pages" in c.site.baseTypes
    ensures c.GetModuleNamespace() == Ok(BaseModule("Pages"))
  {
    CamelizePages();
  }

  /** With no namespace directory at any level, `generate` yields the
      empty dictionary and never aborts, whatever `use` says. */
  lemma NoPathsGenerateEmpty(c: Collection, ids: Option<seq<string>>, filter: Option<(Dir, string) -> bool>)
    requires !c.HasPaths()
    ensures c.GenerateResult(ids, filter) == Ok(map[])
  {
    NoDirectoryNoFiles(c.site, c.Request(ids, filter), c.CascadeRoots());
  }

  /** Without a Model, the keys of `generate`'s dictionary are exactly the
      ids of the pointers `files` returns. */
  lemma GenerateKeysAreFileIds(c: Collection, ids: Option<seq<string>>, filter: Option<(Dir, string) -> bool>)
    requires c.Provides("model") == Ok(false)
    ensures var ps := FileList(c.site, c.Request(ids, filter), c.CascadeRoots());
      forall x :: x in c.GenerateResult(ids, filter).value <==> exists k :: 0 <= k < |ps| && ps[k].id == x
  {
    var ps := FileList(c.site, c.Request(ids, filter), c.CascadeRoots());
    var g := c.GenerateResult(ids, filter);
    assert g.value == Merge(c.site, None, ps) by {
      if ps != [] {
        assert c.ModelModule() == Ok(None);
      }
    }
    NoModelKeysAreIds(c.site, ps);
  }
}

=== FILE: context.dfy ===
/** The state a Ruhoh build hands to the resource core: where the three
    cascade roots live, what the filesystem under them holds, the parsed
    config.yml, and which resource types are installed. Everything the Ruby
    code obtains through reflection or through the filesystem is an explicit
    value here. */
module Context {

  datatype Option<+T> = None | Some(value: T)

  datatype Result<+T, +E> = Ok(value: T) | Err(error: E)

  /** What a path inside a namespace directory is. */
  datatype Kind = RegularFile | Directory

  /** One directory as the core sees it: the paths a glob lists, in the
      listing order the filesystem gives, and the kind of every path that
      exists below it (a path absent from `kinds` does not exist). */
  datatype Dir = Dir(listing: seq<string>, kinds: map<string, Kind>)

  /** The roots of the cascade levels; a theme is optional. */
  datatype PathConfig = PathConfig(system: string, base: string, theme: Option<string>)

  /** The value config.yml gives a resource name, told apart by what the
      core's `value["use"]` and `value["exclude"]` do with it:
      - `Object`: a mapping with optional `use` and `exclude` keys;
      - `Text`: a string, where `[]` with a string argument is substring
        search and yields the argument itself when the text contains it;
      - `Falsy`: nil or false, which `config && ...` and `config || {}` skip;
      - `Indexless`: true, a number or a list, where `[]` with a string
        argument raises. */
  datatype ConfigValue =
    | Object(use: Option<string>, exclude: seq<string>)
    | Text(text: string)
    | Falsy
    | Indexless

  /** A Ruby module that may implement a resource type: one of
      Ruhoh::Resources::<Name> (installed by a theme or plugin) or
      Ruhoh::Base::<Name> (built in). */
  datatype TypeModule = ResourcesModule(name: string) | BaseModule(name: string)

  /** A content file found by discovery. */
  datatype Pointer = Pointer(id: string, realpath: string, resource: string)

  /** One value of a generated dictionary: the pointer itself when the
      resource has no Model, otherwise what the Model produced. */
  datatype Record = PointerRecord(pointer: Pointer) | ModelRecord(data: map<string, string>)

  /** The fatal and the reflective failures of the core: `abort` on a `use`
      naming no known type, `const_get` of a constant the resolved module
      does not define, and the NameError of an instance-variable name Ruby
      does not allow. */
  datatype LoadError =
    | Abort(resource: string, use: string)
    | Undefined(owner: TypeModule, constant: string)
    | IllegalName(name: string)

  /** The `@ruhoh` object as far as the core reads it.
      - `tree`: cascade root -> namespace -> directory, for the directories that exist;
      - `contentRoot`: the site's own base directory, where resources are discovered;
      - `config`: config.yml's top-level entries in file order;
      - `registered` / `baseTypes`: downcased names of the constants of
        Ruhoh::Resources and of the modules under Ruhoh::Base;
      - `constants`: the constants each type module defines (Collection, Model, Client, ...);
      - `matches`: whether an exclude pattern matches an id;
      - `modelOutput`: what Model.new(ruhoh, pointer).generate returns. */
  datatype Site = Site(
    paths: PathConfig,
    tree: map<string, map<string, Dir>>,
    contentRoot: Dir,
    config: seq<(string, ConfigValue)>,
    registered: seq<string>,
    baseTypes: seq<string>,
    constants: map<TypeModule, set<string>>,
    matches: (string, string) -> bool,
    modelOutput: (TypeModule, Pointer) -> map<string, Record>)

  /** `config[key]`: the value of the first entry with that key, if any. */
  function Lookup(config: seq<(string, ConfigValue)>, key: string): (v: Option<ConfigValue>)
    ensures v.Some? <==> exists i :: 0 <= i < |config| && config[i].0 == key
    ensures v.Some? ==> exists i :: 0 <= i < |config| && config[i].0 == key && config[i].1 == v.value
  {
    if config == [] then None
    else if config[0].0 == key then Some(config[0].1)
    else Lookup(config[1..], key)
  }

  /** A Ruby Hash holds each key once. */
  predicate DistinctKeys(config: seq<(string, ConfigValue)>)
  {
    forall i, j :: 0 <= i < j < |config| ==> config[i].0 != config[j].0
  }

  /** With each key once, looking up an entry's key finds that entry. */
  lemma {:induction false} LookupDistinct(config: seq<(string, ConfigValue)>, i: nat)
    requires DistinctKeys(config) && i < |config|
    ensures Lookup(config, config[i].0) == Some(config[i].1)
  {
    if i > 0 {
      assert config[0].0 != config[i].0;
      assert DistinctKeys(config[1..]) by {
        forall a, b | 0 <= a < b < |config| - 1 ensures config[1..][a].0 != config[1..][b].0 {
          assert config[1..][a] == config[a + 1] && config[1..][b] == config[b + 1];
        }
      }
      assert config[1..][i - 1] == config[i];
      LookupDistinct(config[1..], i - 1);
    }
  }

  /** Whether `w` occurs in `t`, which is when `t[w]` yields `w`. */
  predicate HasSubstring(t: string, w: string)
    decreases |t|
  {
    |w| <= |t| && (t[..|w|] == w || (t != [] && HasSubstring(t[1..], w)))
  }

  /** `value["use"]` where it does not raise: an object's `use`, "use"
      itself for a text containing it, nil otherwise. */
  function UseOfValue(v: ConfigValue): Option<string>
  {
    match v
    case Object(use, _) => use
    case Text(t) => if HasSubstring(t, "use") then Some("use") else None
    case _ => None
  }

  /** `@ruhoh.config[resource]["use"] rescue nil`: a missing entry, nil,
      false and the values whose `[]` raises all give nil. */
  function UseOf(site: Site, resource: string): Option<string>
  {
    match Lookup(site.config, resource)
    case Some(v) => UseOfValue(v)
    case None => None
  }

  /** `Array((config || {})['exclude'])`: an object's patterns, the single
      pattern "exclude" for a text containing it, none otherwise. */
  function ExcludesOf(site: Site, resource: string): seq<string>
  {
    match Lookup(site.config, resource)
    case Some(Object(_, exclude)) => exclude
    case Some(Text(t)) => if HasSubstring(t, "exclude") then ["exclude"] else []
    case _ => []
  }

  /** `module.const_defined?(name)` */
  predicate Defines(site: Site, m: TypeModule, name: string)
  {
    m in site.constants && name in site.constants[m]
  }

  /** `File.directory?(File.join(root, namespace))` */
  predicate IsNamespaceDir(site: Site, root: string, namespace: string)
  {
    root in site.tree && namespace in site.tree[root]
  }

  /** `File.join(a, b)` */
  function Join(a: string, b: string): string
  {
    a + "/" + b
  }
}

=== FILE: lists.dfy ===
/** The Ruby Array operations the registry builds its name lists with. */
module Lists {

  predicate NoDuplicates(s: seq<string>)
  {
    forall i, j :: 0 <= i < j < |s| ==> s[i] != s[j]
  }

  /** `Array#uniq`: the first occurrence of every element, in order. */
  function Uniq(s: seq<string>): (r: seq<string>)
    ensures NoDuplicates(r)
    ensures forall x :: x in r <==> x in s
    ensures |r| <= |s|
  {
    if s == [] then []
    else
      var u := Uniq(s[..|s| - 1]);
      var x := s[|s| - 1];
      assert forall y :: y in s <==> y in s[..|s| - 1] || y == x by {
        assert s == s[..|s| - 1] + [x];
      }
      if x in u then u else u + [x]
  }

  /** `Array#delete(x)` on a fresh array: every occurrence of `x` removed,
      the rest in order. */
  function Delete(s: seq<string>, x: string): (r: seq<string>)
    ensures forall y :: y in r <==> y in s && y != x
    ensures NoDuplicates(s) ==> NoDuplicates(r)
    ensures |r| <= |s|
  {
    Minus(s, [x])
  }

  /** `a - b`: the elements of `a` that are not in `b`, in order, duplicates kept. */
  function Minus(a: seq<string>, b: seq<string>): (r: seq<string>)
    ensures forall y :: y in r <==> y in a && y !in b
    ensures NoDuplicates(a) ==> NoDuplicates(r)
    ensures |r| <= |a|
  {
    if a == [] then []
    else
      var rest := Minus(a[1..], b);
      assert forall y :: y in a <==> y == a[0] || y in a[1..] by {
        assert a == [a[0]] + a[1..];
      }
      if a[0] in b then rest else [a[0]] + rest
  }

  /** Subtracting elements that do not occur changes nothing. */
  lemma {:induction false} MinusDisjoint(a: seq<string>, b: seq<string>)
    requires forall y :: y in a ==> y !in b
    ensures Minus(a, b) == a
  {
    if a != [] {
      assert a == [a[0]] + a[1..];
      MinusDisjoint(a[1..], b);
    }
  }
}

=== FILE: naming.dfy ===
/** `camelize`, which both core classes use to turn a snake-case type name
    into the name of a Ruby constant: `name.split('_').map(&:capitalize).join`.
    Characters are ASCII; `capitalize` upper-cases the first letter of a
    piece and lower-cases the rest. */
module Naming {

  function Upper(c: char): char
  {
    if 'a' <= c <= 'z' then (c as int - 32) as char else c
  }

  function Lower(c: char): char
  {
    if 'A' <= c <= 'Z' then (c as int + 32) as char else c
  }

  function LowerAll(w: string): (r: string)
    ensures |r| == |w|
  {
    if w == [] then [] else [Lower(w[0])] + LowerAll(w[1..])
  }

  /** `String#capitalize` */
  function Capitalize(w: string): (r: string)
    ensures |r| == |w|
  {
    if w == [] then [] else [Upper(w[0])] + LowerAll(w[1..])
  }

  /** The pieces between underscores, empty pieces included. */
  function Pieces(s: string): (ps: seq<string>)
    ensures |ps| >= 1
  {
    if s == [] then [[]]
    else if s[0] == '_' then [[]] + Pieces(s[1..])
    else
      var rest := Pieces(s[1..]);
      [[s[0]] + rest[0]] + rest[1..]
  }

  /** Ruby's `split` drops the trailing empty pieces. */
  function DropTrailingEmpty(ps: seq<string>): seq<string>
  {
    if ps == [] then []
    else if ps[|ps| - 1] == [] then DropTrailingEmpty(ps[..|ps| - 1])
    else ps
  }

  /** `s.split('_')` */
  function Split(s: string): seq<string>
  {
    DropTrailingEmpty(Pieces(s))
  }

  /** `.map(&:capitalize).join` */
  function JoinCapitalized(ps: seq<string>): string
  {
    if ps == [] then [] else Capitalize(ps[0]) + JoinCapitalized(ps[1..])
  }

  function Camelize(s: string): string
  {
    JoinCapitalized(Split(s))
  }

  /** An independent reading of camelize, one character at a time:
      underscores vanish, the first character of each piece is upper-cased
      and every other character lower-cased. */
  function CamelizeChars(s: string, atStart: bool): string
  {
    if s == [] then []
    else if s[0] == '_' then CamelizeChars(s[1..], true)
    else [if atStart then Upper(s[0]) else Lower(s[0])] + CamelizeChars(s[1..], false)
  }

  function CountUnderscores(s: string): nat
  {
    if s == [] then 0 else (if s[0] == '_' then 1 else 0) + CountUnderscores(s[1..])
  }

  lemma {:induction false} JoinIgnoresTrailingEmpty(ps: seq<string>)
    ensures JoinCapitalized(DropTrailingEmpty(ps)) == JoinCapitalized(ps)
  {
    if ps != [] && ps[|ps| - 1] == [] {
      var init := ps[..|ps| - 1];
      assert ps == init + [[]];
      assert JoinCapitalized([[]]) == [] by {
        var single: seq<string> := [[]];
        assert Capitalize(single[0]) == [] && single[1..] == [];
      }
      calc {
        JoinCapitalized(DropTrailingEmpty(ps));
        JoinCapitalized(DropTrailingEmpty(init));
        { JoinIgnoresTrailingEmpty(init); }
        JoinCapitalized(init);
        JoinCapitalized(init) + JoinCapitalized([[]]);
        { JoinAppend(init, [[]]); }
        JoinCapitalized(ps);
      }
    }
  }

  lemma {:induction false} JoinAppend(a: seq<string>, b: seq<string>)
    ensures JoinCapitalized(a + b) == JoinCapitalized(a) + JoinCapitalized(b)
  {
    if a != [] {
      calc {
        JoinCapitalized(a + b);
        { assert (a + b)[0] == a[0] && (a + b)[1..] == a[1..] + b; }
        Capitalize(a[0]) + JoinCapitalized(a[1..] + b);
        { JoinAppend(a[1..], b); }
        Capitalize(a[0]) + (JoinCapitalized(a[1..]) + JoinCapitalized(b));
      }
    } else {
      assert a + b == b;
    }
  }

  lemma {:induction false} PiecesWalk(s: string)
    ensures var ps := Pieces(s);
      && CamelizeChars(s, true) == Capitalize(ps[0]) + JoinCapitalized(ps[1..])
      && CamelizeChars(s, false) == LowerAll(ps[0]) + JoinCapitalized(ps[1..])
  {
    if s != [] {
      PiecesWalk(s[1..]);
      var rest := Pieces(s[1..]);
      if s[0] == '_' {
        assert Pieces(s)[1..] == rest;
        assert JoinCapitalized(rest) == Capitalize(rest[0]) + JoinCapitalized(rest[1..]);
      } else {
        var w := [s[0]] + rest[0];
        assert Pieces(s)[0] == w && Pieces(s)[1..] == rest[1..];
        assert w[1..] == rest[0];
      }
    }
  }

  /** Ruby's split-capitalize-join equals the character-wise reading. */
  lemma CamelizeIsCharwise(s: string)
    ensures Camelize(s) == CamelizeChars(s, true)
  {
    var ps := Pieces(s);
    JoinIgnoresTrailingEmpty(ps);
    PiecesWalk(s);
    assert ps == [ps[0]] + ps[1..];
  }

  lemma {:induction false} CharwiseShape(s: string, atStart: bool)
    ensures |CamelizeChars(s, atStart)| == |s| - CountUnderscores(s)
    ensures '_' !in CamelizeChars(s, atStart)
  {
    if s != [] {
      CharwiseShape(s[1..], true);
      CharwiseShape(s[1..], false);
    }
  }

  /** Camelize removes every underscore and keeps every other character. */
  lemma CamelizeShape(s: string)
    ensures |Camelize(s)| == |s| - CountUnderscores(s)
    ensures '_' !in Camelize(s)
  {
    CamelizeIsCharwise(s);
    CharwiseShape(s, true);
  }

  lemma {:induction false} CharwiseLowercase(s: string)
    requires forall i :: 0 <= i < |s| ==> 'a' <= s[i] <= 'z'
    ensures CamelizeChars(s, false) == s
  {
    if s != [] {
      CharwiseLowercase(s[1..]);
    }
  }

  /** A lower-case word without underscores comes out with its first letter
      upper-cased and the rest kept. */
  lemma CamelizeWord(s: string)
    requires s != [] && forall i :: 0 <= i < |s| ==> 'a' <= s[i] <= 'z'
    ensures Camelize(s) == [Upper(s[0])] + s[1..]
  {
    CamelizeIsCharwise(s);
    CharwiseLowercase(s[1..]);
  }

  /** The default type's constant is the camelized name of the "pages" type. */
  lemma CamelizePages()
    ensures Camelize("pages") == "Pages"
  {
    CamelizeIsCharwise("pages");
  }
}

=== FILE: resources_interface.dfy ===
/** Ruhoh::ResourcesInterface: which resource names exist, which of them
    behave as pages, which module implements a resource, and the cache of
    one Collection instance per resource. */
module Registry {
  import opened Context
  import opened Naming
  import opened Lists
  import opened BaseCollection

  /** The entries of `d` among `names` that are directories, without "plugins". */
  function SelectDirectories(d: Dir, names: seq<string>): (r: seq<string>)
    ensures forall x :: x in r <==> x in names && x in d.kinds && d.kinds[x] == Directory && x != "plugins"
    ensures |r| <= |names|
  {
    if names == [] then []
    else
      var x := names[0];
      var rest := SelectDirectories(d, names[1..]);
      assert forall y :: y in names <==> y == x || y in names[1..] by {
        assert names == [x] + names[1..];
      }
      if x in d.kinds && d.kinds[x] == Directory && x != "plugins" then [x] + rest else rest
  }

  /** The body of the `acting_as_pages` map block for one config entry:
      the resource name, or nil (`next`). */
  function PageCandidate(entry: (string, ConfigValue), nonPageTypes: seq<string>, discovered: seq<string>): Option<string>
  {
    var (resource, config) := entry;
    var use := UseOfValue(config);
    if resource == "theme" then None
    else if use.Some? && use.value != "pages" then None
    else if resource in nonPageTypes then None
    else if resource !in discovered then None
    else Some(resource)
  }

  /** `config.map { ... }.compact` */
  function CollectPages(entries: seq<(string, ConfigValue)>, nonPageTypes: seq<string>, discovered: seq<string>): (r: seq<string>)
    ensures forall x :: x in r <==>
      exists i :: 0 <= i < |entries| && entries[i].0 == x && PageCandidate(entries[i], nonPageTypes, discovered).Some?
  {
    if entries == [] then []
    else
      var rest := CollectPages(entries[1..], nonPageTypes, discovered);
      var head := PageCandidate(entries[0], nonPageTypes, discovered);
      assert forall i :: 0 < i < |entries| ==> entries[i] == entries[1..][i - 1];
      (if head.Some? then [head.value] else []) + rest
  }

  /** `"@#{resource}_#{class_name}"`: the instance variable caching one instance. */
  function CacheKey(resource: string, className: string): string
  {
    "@" + resource + "_" + className
  }

  /** For one class name, distinct resources get distinct cache keys. */
  lemma CacheKeyInjective(r1: string, r2: string, className: string)
    requires CacheKey(r1, className) == CacheKey(r2, className)
    ensures r1 == r2
  {
    var k1, k2 := CacheKey(r1, className), CacheKey(r2, className);
    assert |r1| == |r2|;
    forall i | 0 <= i < |r1| ensures r1[i] == r2[i] {
      assert k1[i + 1] == r1[i] && k2[i + 1] == r2[i];
    }
  }

  predicate IsDigit(c: char)
  {
    '0' <= c <= '9'
  }

  /** A character Ruby allows in an identifier: an ASCII letter or digit,
      '_', or any character outside ASCII. */
  predicate IdentChar(c: char)
  {
    'a' <= c <= 'z' || 'A' <= c <= 'Z' || IsDigit(c) || c == '_' || c as int >= 128
  }

  /** A name `instance_variable_defined?` accepts: '@', then an identifier
      that does not start with a digit. */
  predicate IsIvarName(s: string)
  {
    |s| >= 2 && s[0] == '@' && !IsDigit(s[1]) && forall i :: 1 <= i < |s| ==> IdentChar(s[i])
  }

  /** The cache variable of a resource's collection is a legal name iff the
      resource name does not start with a digit and holds only identifier
      characters; `my-posts` and `2013` fail. */
  lemma CollectionKeyLegal(resource: string)
    ensures IsIvarName(CacheKey(resource, "collection")) <==>
      && (resource == [] || !IsDigit(resource[0]))
      && forall i :: 0 <= i < |resource| ==> IdentChar(resource[i])
  {
    var key := CacheKey(resource, "collection");
    var tail := "_collection";
    assert key == "@" + resource + tail;
    assert forall i :: 0 <= i < |resource| ==> key[i + 1] == resource[i];
    assert forall j :: 0 <= j < |tail| ==> key[|resource| + 1 + j] == tail[j];
    assert forall j :: 0 <= j < |tail| ==> IdentChar(tail[j]);
    if resource == [] {
      assert key[1] == '_';
    }
  }

  class ResourcesInterface {
    /** `@ruhoh` */
    const site: Site
    /** The instance variables `@<resource>_<class>` that hold cached instances. */
    var instances: map<string, Collection>

    constructor (site: Site)
      ensures this.site == site && instances == map[]
    {
      this.site := site;
      instances := map[];
    }

    /** Every cache variable is a legal name and holds an instance built on
        this registry's site; every cached collection answers to the
        resource its key names. */
    ghost predicate Valid()
      reads this, instances.Values
    {
      && (forall k :: k in instances ==> IsIvarName(k) && instances[k].site == site)
      && forall r :: CacheKey(r, "collection") in instances ==>
        instances[CacheKey(r, "collection")].resourceName == r
    }

    /** `discover`: the directories directly under the content root, except "plugins". */
    function Discover(): (r: seq<string>)
      ensures forall x :: x in r <==>
        && x in site.contentRoot.listing
        && x in site.contentRoot.kinds && site.contentRoot.kinds[x] == Directory
        && x != "plugins"
    {
      SelectDirectories(site.contentRoot, site.contentRoot.listing)
    }

    /** `all`: discovered and registered names, each once, never "compiled". */
    function All(): (r: seq<string>)
      ensures NoDuplicates(r)
      ensures forall x :: x in r <==> (x in Discover() || x in site.registered) && x != "compiled"
    {
      Delete(Uniq(Discover() + site.registered), "compiled")
    }

    /** `acting_as_pages`: config keys that get page semantics. */
    function ActingAsPages(): (r: seq<string>)
      ensures forall x :: x in r ==> x != "theme" && x in Discover()
      ensures forall x :: x in r <==>
        (exists i :: 0 <= i < |site.config| && site.config[i].0 == x &&
           (UseOfValue(site.config[i].1).None? || UseOfValue(site.config[i].1) == Some("pages")))
        && x != "theme"
        && (x !in site.registered || x == "pages" || x == "posts")
        && x in Discover()
    {
      var nonPageTypes := Delete(Delete(site.registered, "pages"), "posts");
      assert forall x :: x in nonPageTypes <==> x in site.registered && x != "pages" && x != "posts";
      CollectPages(site.config, nonPageTypes, Discover())
    }

    /** `non_pages` as the source computes it: `(discover + registered) -
        acting_as_pages`, then "theme" and "compiled" deleted. Nothing
        removes the duplicates of a name both discovered and registered. */
    function NonPagesAsWritten(): (r: seq<string>)
      ensures forall x :: x in r <==>
        (x in Discover() || x in site.registered) && x !in ActingAsPages() && x != "theme" && x != "compiled"
    {
      Delete(Delete(Minus(Discover() + site.registered, ActingAsPages()), "theme"), "compiled")
    }

    /** `non_pages` as intended: every name of `all` that does not act as a
        page, except "theme", each once. */
    function NonPages(): (r: seq<string>)
      ensures NoDuplicates(r)
      ensures forall x :: x in r <==> x in All() && x !in ActingAsPages() && x != "theme"
      ensures forall x :: x in r <==> x in NonPagesAsWritten()
    {
      Delete(Minus(All(), ActingAsPages()), "theme")
    }

    /** `exists?(name)` */
    function Exists(name: string): (b: bool)
      ensures b <==> (name in Discover() || name in site.registered) && name != "compiled"
    {
      name in All()
    }

    /** `get_module_namespace_for(resource)`: the registry's copy of the
        type-resolution rule. */
    function GetModuleNamespaceFor(resource: string): (r: Result<TypeModule, LoadError>)
      ensures var use := UseOf(site, resource);
        r.Err? <==> use.Some? && use.value !in site.registered && use.value !in site.baseTypes
      ensures r.Err? ==> r.error == Abort(resource, UseOf(site, resource).value)
      ensures var use := UseOf(site, resource);
        use.Some? && use.value in site.registered ==> r == Ok(ResourcesModule(Camelize(use.value)))
      ensures var use := UseOf(site, resource);
        use.Some? && use.value !in site.registered && use.value in site.baseTypes ==>
          r == Ok(BaseModule(Camelize(use.value)))
      ensures UseOf(site, resource).None? ==>
        r == if resource in site.registered then Ok(ResourcesModule(Camelize(resource)))
             else Ok(BaseModule("Pages"))
    {
      var use := UseOf(site, resource);
      if use.Some? then
        if use.value in site.registered then Ok(ResourcesModule(Camelize(use.value)))
        else if use.value in site.baseTypes then Ok(BaseModule(Camelize(use.value)))
        else Err(Abort(resource, use.value))
      else if resource in site.registered then Ok(ResourcesModule(Camelize(resource)))
      else Ok(BaseModule("Pages"))
    }

    /** `collection(resource)`: the module's Collection class, or a NameError. */
    function CollectionClass(resource: string): (r: Result<TypeModule, LoadError>)
      ensures r.Ok? ==> r == GetModuleNamespaceFor(resource) && Defines(site, r.value, "Collection")
      ensures GetModuleNamespaceFor(resource).Ok? && !Defines(site, GetModuleNamespaceFor(resource).value, "Collection")
        ==> r == Err(Undefined(GetModuleNamespaceFor(resource).value, "Collection"))
      ensures GetModuleNamespaceFor(resource).Err? ==> r == Err(GetModuleNamespaceFor(resource).error)
    {
      match GetModuleNamespaceFor(resource)
      case Err(e) => Err(e)
      case Ok(m) => if Defines(site, m, "Collection") then Ok(m) else Err(Undefined(m, "Collection"))
    }

    /** `collection?(resource)` */
    function HasCollection(resource: string): (r: Result<bool, LoadError>)
      ensures r.Ok? <==> GetModuleNamespaceFor(resource).Ok?
      ensures r == Ok(true) <==> CollectionClass(resource).Ok?
      ensures GetModuleNamespaceFor(resource).Err? ==> r == Err(GetModuleNamespaceFor(resource).error)
    {
      match GetModuleNamespaceFor(resource)
      case Err(e) => Err(e)
      case Ok(m) => Ok(Defines(site, m, "Collection"))
    }

    /** `load_class_instance_for(class_name, resource)`: a NameError when
        `@<resource>_<class>` is not a legal instance-variable name; else the
        cached instance when one exists, else a new instance of the module's
        class (or of Base::Collection) on this site, named after the
        resource and cached. */
    method LoadClassInstanceFor(className: string, resource: string) returns (r: Result<Collection, LoadError>)
      modifies this
      ensures !IsIvarName(CacheKey(resource, className)) ==>
        r == Err(IllegalName(CacheKey(resource, className))) && instances == old(instances)
      ensures IsIvarName(CacheKey(resource, className)) && CacheKey(resource, className) in old(instances) ==>
        r == Ok(old(instances)[CacheKey(resource, className)]) && instances == old(instances)
      ensures IsIvarName(CacheKey(resource, className)) && CacheKey(resource, className) !in old(instances) ==>
        match GetModuleNamespaceFor(resource)
        case Err(e) => r == Err(e) && instances == old(instances)
        case Ok(m) =>
          && r.Ok? && fresh(r.value)
          && r.value.site == site
          && r.value.resourceName == resource
          && r.value.impl == (if Defines(site, m, Camelize(className)) then Custom(m) else Generic)
          && r.value.collectionView == null
          && instances == old(instances)[CacheKey(resource, className) := r.value]
    {
      var key := CacheKey(resource, className);
      if !IsIvarName(key) {
        return Err(IllegalName(key));
      }
      if key in instances {
        return Ok(instances[key]);
      }
      var klass := GetModuleNamespaceFor(resource);
      if klass.Err? {
        return Err(klass.error);
      }
      var impl := if Defines(site, klass.value, Camelize(className)) then Custom(klass.value) else Generic;
      var instance := new Collection(site, impl);
      instance.resourceName := resource;
      instances := instances[key := instance];
      return Ok(instance);
    }

    /** `load_collection(resource)`: the cached Collection of a resource,
        built on this site and resolving its type as the registry does. */
    method LoadCollection(resource: string) returns (r: Result<Collection, LoadError>)
      requires Valid()
      modifies this
      ensures Valid()
      ensures r.Ok? ==> r.value.resourceName == resource && r.value.site == site
      ensures r.Ok? ==> r.value.GetModuleNamespace() == GetModuleNamespaceFor(resource)
      ensures r.Ok? ==> CacheKey(resource, "collection") in instances && instances[CacheKey(resource, "collection")] == r.value
      ensures r.Err? ==> instances == old(instances)
      ensures !IsIvarName(CacheKey(resource, "collection")) ==>
        r == Err(IllegalName(CacheKey(resource, "collection"))) && instances == old(instances)
      ensures CacheKey(resource, "collection") in old(instances) ==>
        r == Ok(old(instances)[CacheKey(resource, "collection")]) && instances == old(instances)
      ensures IsIvarName(CacheKey(resource, "collection")) && CacheKey(resource, "collection") !in old(instances) ==>
        match GetModuleNamespaceFor(resource)
        case Err(e) => r == Err(e) && instances == old(instances)
        case Ok(m) =>
          && r.Ok? && fresh(r.value)
          && r.value.impl == (if Defines(site, m, Camelize("collection")) then Custom(m) else Generic)
          && instances == old(instances)[CacheKey(resource, "collection") := r.value]
    {
      r := LoadClassInstanceFor("collection", resource);
      forall x | CacheKey(x, "collection") in instances
        ensures instances[CacheKey(x, "collection")].resourceName == x
      {
        if CacheKey(x, "collection") == CacheKey(resource, "collection") {
          CacheKeyInjective(x, resource, "collection");
        }
      }
      if r.Ok? {
        ResolversAgree(r.value, this);
      }
    }

    /** Asking twice for the same resource's collection yields the same
        object (or the same fatal error). */
    method LoadCollectionTwice(resource: string) returns (first: Result<Collection, LoadError>, second: Result<Collection, LoadError>)
      requires Valid()
      modifies this
      ensures Valid()
      ensures second == first
      ensures first.Ok? ==> CacheKey(resource, "collection") in instances && instances[CacheKey(resource, "collection")] == first.value
      ensures first.Ok? ==> instances == old(instances)[CacheKey(resource, "collection") := first.value]
      ensures first.Err? ==> instances == old(instances)
      ensures first.Err? ==>
        if !IsIvarName(CacheKey(resource, "collection")) then first == Err(IllegalName(CacheKey(resource, "collection")))
        else GetModuleNamespaceFor(resource).Err? && first == Err(GetModuleNamespaceFor(resource).error)
    {
      first := LoadCollection(resource);
      second := LoadCollection(resource);
    }
  }

  /** The collection and the registry resolve a resource's type by the same
      precedence: `use` (registered, then built in, else abort), otherwise
      the registered type of the resource's own name, otherwise Pages. */
  lemma ResolversAgree(c: Collection, ri: ResourcesInterface)
    requires c.site == ri.site
    ensures c.GetModuleNamespace() == ri.GetModuleNamespaceFor(c.resourceName)
  {
  }

  /** Reading `acting_as_pages` through `config[name]`: a config.yml whose
      keys are distinct (as a parsed Hash's are) lets a name act as a page
      iff its entry exists and its `use` is absent or "pages", and the
      other three conditions hold. */
  lemma ActingAsPagesByLookup(ri: ResourcesInterface)
    requires DistinctKeys(ri.site.config)
    ensures forall x :: x in ri.ActingAsPages() <==>
      && Lookup(ri.site.config, x).Some?
      && (UseOf(ri.site, x).None? || UseOf(ri.site, x) == Some("pages"))
      && x != "theme"
      && (x !in ri.site.registered || x == "pages" || x == "posts")
      && x in ri.Discover()
  {
    var config := ri.site.config;
    forall x | x in ri.ActingAsPages()
      ensures Lookup(config, x).Some? && (UseOf(ri.site, x).None? || UseOf(ri.site, x) == Some("pages"))
    {
      var i :| 0 <= i < |config| && config[i].0 == x &&
        (UseOfValue(config[i].1).None? || UseOfValue(config[i].1) == Some("pages"));
      LookupDistinct(config, i);
    }
  }

  /** The duplicate `non_pages` keeps: a resource that is both a directory
      under the content root and a registered type appears twice. */
  lemma NonPagesRepeatsName(ri: ResourcesInterface)
    requires ri.site.contentRoot == Dir(["layouts"], map["layouts" := Directory])
    requires ri.site.registered == ["layouts"]
    requires ri.site.config == []
    ensures ri.NonPagesAsWritten() == ["layouts", "layouts"]
    ensures ri.NonPages() == ["layouts"]
  {
    LayoutsSite(ri);
    var both: seq<string> := ["layouts", "layouts"];
    assert ri.NonPagesAsWritten() == both by {
      MinusDisjoint(both, []);
      MinusDisjoint(both, ["theme"]);
      MinusDisjoint(both, ["compiled"]);
    }
    assert ri.NonPages() == ["layouts"] by {
      assert Uniq(both) == ["layouts"] by {
        assert both[..1] == ["layouts"];
        assert Uniq(["layouts"]) == ["layouts"];
      }
      MinusDisjoint(["layouts"], ["compiled"]);
      MinusDisjoint(["layouts"], []);
      MinusDisjoint(["layouts"], ["theme"]);
    }
  }

  /** The lists of the site in `NonPagesRepeatsName`. */
  lemma LayoutsSite(ri: ResourcesInterface)
    requires ri.site.contentRoot == Dir(["layouts"], map["layouts" := Directory])
    requires ri.site.registered == ["layouts"]
    requires ri.site.config == []
    ensures ri.Discover() == ["layouts"] && ri.ActingAsPages() == []
    ensures ri.Discover() + ri.site.registered == ["layouts", "layouts"]
  {
    assert SelectDirectories(ri.site.contentRoot, []) == [];
  }
}
